=== FILE: README.md ===
# Settings round trip, model serializer and path coercion, in Dafny

This project models the data core of the `Common` .NET library:

- **`ModelSerializer`** turns an object's public properties into a
  `name -> JSON text` map. It also builds a fresh object of a given type back
  from such a map.
- **`SettingsManager<T>`** holds one settings object. It exposes that object
  as the same kind of map and updates it in place from a map. It also reads
  and writes the map as the lines of an INI file.
- **`PathUtils`** makes file names and URL slugs out of arbitrary text.
- **`TrayApplicationContext.LoadSettings` / `SaveSettings`** is the policy
  that loads settings from an INI file, falls back to defaults, and saves them.

## How reflection, JSON and the file system are modelled

- **Reflection** becomes a table of property descriptors
  (`Reflection.Property`). Each descriptor holds:
  - the property's name and declared type;
  - whether it has a getter and a setter;
  - its `[Serialize]` flag and its `[IgnoreSetting]` mark;
  - its `[DefaultValue]`.

  An object is a `map<string, Value>`. A type is its descriptor table plus what
  its parameterless constructor builds, or `None` when `Activator.CreateInstance`
  would throw.
- **Foreign code** is a `Values.Runtime` record of functions, fixed per run:
  - the JSON encoder and decoder (Newtonsoft with `TypeNameHandling.All`);
  - the `IsAssignableFrom` test;
  - the `TypeDescriptor` converter.

  The decoder and converter are partial and return an `Option`. No property
  of them is assumed except where a lemma states it as a precondition (for
  example `Values.RoundTrips`).
- **Exceptions** are values of `Values.Error`. A function that can throw
  returns a `Result`. The settings manager's in-place update returns the
  updated manager together with the exception that escaped, if any.
- **Shared decisions.** Both serializers make the same decision about each
  property, in `Reflection.Decide`. The only difference between them is which
  properties they include (`Reflection.Policy`):
  - the model serializer skips `[Serialize(false)]` properties and properties
    without both a getter and a setter;
  - the settings manager skips only `[IgnoreSetting]` properties.

  Because the settings manager does not filter on getters and setters, the
  model includes the exceptions .NET reflection raises:
  - `NotReadable`: a property without a getter is read;
  - `NotWritable`: a value is set on a property without a setter.
- **Text.** A file is its text, a `string`. The module `TextLines` models the
  text writer and reader the INI layer goes through:
  - `WriteLine` appends the line and the Windows newline `\r\n`;
  - `ReadLine` returns the characters up to the next `\r`, `\n` or `\r\n`, and
    a last line without a terminator is still returned.

  So a key or value holding a line break is read back as more than one line
  (`TextLines.BrokenLineSplits`).
- **Files.** The file store (`TraySettings.Disk`) maps paths to text. It also
  says what opening a file for reading, and for writing, raises, if anything:
  - an `IOException` (`IOFault`), which the application catches;
  - an `UnauthorizedAccessException` (`AccessFault`), which it does not catch,
    so it escapes as `Values.AccessDenied`.

Two facts about the code that the model follows:

- `SettingsManager.DeserializeFromHash` does not call the model serializer. It
  sets the properties one by one on the held object
  (`Data/SettingsManager.cs:45-67`), with its own filter and no new object. So
  a property with no key and no default keeps its previous value, not a
  constructed one. An exception part-way leaves the earlier properties already
  set and the later ones as they were.
- The comments at `Data/PathUtils.cs:44` and `Data/PathUtils.cs:49` speak of
  trimming "dashes", but the code trims `_` (`Data/PathUtils.cs:45`,
  `Data/PathUtils.cs:50`). The model trims `_`.

## Model

| member | source | states |
|---|---|---|
| `Reflection.EncodeAll` | Data/ModelSerializer.cs:20-33 | Encoding under either policy succeeds exactly when every included property has a getter. The keys are exactly the included names, each holding the encoding of that property's value. A failure names an included property without a getter. |
| `Reflection.DecideOutcome` | Data/SettingsManager.cs:47-64 | One property's decision: nothing for an excluded property, and nothing for an included one with no key and no default. Otherwise it fails only on undecodable text, on a conversion the converter cannot do, or on a value (from the map or a default) for a property without a setter. Undecodable text always fails. On success a present key gives the decoded value, converted when its type does not fit, and an absent key gives the `[DefaultValue]`. |
| `Reflection.Coerce` | Data/SettingsManager.cs:52-55 | Null, or a value the declared type accepts, is kept as it is. Any other value is replaced by what the converter gives, and the only failure is a conversion error for a value the converter cannot convert. |
| `Reflection.ApplyAllStops` | Data/SettingsManager.cs:45-67 | The update stops at the first failing property. Without an exception every property is decided without failure and settled. With one, it is the failure of some property `f`: every property before `f` is settled as decided, and `f` and every later property are as they were. |
| `Reflection.ApplyAllKeeps` | Data/SettingsManager.cs:47-64 | The update leaves alone every property the policy excludes, and every property whose key is absent and which has no `[DefaultValue]`. |
| `Reflection.ApplyAllRaises` | Data/SettingsManager.cs:45-67 | The property-by-property update raises exactly when some property's decision fails, and then with that property's failure. |
| `Reflection.ApplyAllFrame` | Data/SettingsManager.cs:45-67 | The update never touches a name that is not a property of the type. |
| `Reflection.ApplyAllSettles` | Data/SettingsManager.cs:45-67 | After the update, every property holds the value its own decision assigns, or is left as it was when that decision assigns nothing. Once an exception has escaped, later properties may be left as they were. |
| `Reflection.ApplyAllSpec` | Data/SettingsManager.cs:42-68 | Combines the facts above about the update loop: when it raises, the frame, settling, and stopping at the first failure. |
| `Reflection.ApplyAllCongruent` | Data/ModelSerializer.cs:43-74 | Two updates over properties with the same names and the same per-property decisions end in the same object and the same exception. |
| `Reflection.ApplyAllConforms` | Data/SettingsManager.cs:45-67 | The updated object still has every property of its type. |
| `ModelSerializer.SerializeModelToHash` | Data/ModelSerializer.cs:14-35 | There is exactly one key per property that is not `[Serialize(false)]` and has both a getter and a setter, and there are no other keys. Each key holds the JSON encoding of that property's value. |
| `ModelSerializer.DeserializeModelFromHash` | Data/ModelSerializer.cs:37-76 | A type without a parameterless constructor fails to construct. Otherwise the result is an object exactly when every eligible property's decision succeeds. That object starts from the constructed one: every property is set as its decision says, and every other name keeps its constructed value. A failure comes from an eligible property's decode or conversion. |
| `ModelSerializer.ExcludedKeepsConstructed` | Data/ModelSerializer.cs:45-53 | A property that is `[Serialize(false)]`, or lacks a getter or a setter, keeps its constructed value, whatever the map holds under its name. |
| `ModelSerializer.KeyPresentAssigned` | Data/ModelSerializer.cs:55-62 | When the key is present, its text decodes. A null value is assigned as is, and a value the declared type accepts is assigned as is. Any other value is assigned as the converter's result for it. |
| `ModelSerializer.DefaultApplied` | Data/ModelSerializer.cs:64-71 | When the key is absent and the property has a `[DefaultValue(d)]`, the property becomes `d`. |
| `ModelSerializer.MissingKeyKeepsConstructed` | Data/ModelSerializer.cs:39-72 | When the key is absent and there is no `[DefaultValue]`, the property keeps its constructed value. |
| `ModelSerializer.UnknownKeysIgnored` | Data/ModelSerializer.cs:43-55 | Two maps that agree on the names of the eligible properties decode to the same outcome, so keys that name no eligible property have no effect. |
| `ModelSerializer.SerializeTrueEncodesAsNoAttribute` | Data/ModelSerializer.cs:22-27 | Removing every `[Serialize(true)]` from a type does not change any encoding. Only `Serialize == false` excludes a property. |
| `ModelSerializer.SerializeTrueDecodesAsNoAttribute` | Data/ModelSerializer.cs:45-50 | Removing every `[Serialize(true)]` from a type does not change any decoding. |
| `ModelSerializer.RoundTrip` | Data/ModelSerializer.cs:14-76 | Suppose the codec gives back every eligible value of `x` and each such value fits its declared type. Then decoding the encoding of `x` succeeds, agrees with `x` on every eligible property, and holds the constructed value on every other property. |
| `SettingsManager.NewManager` | Data/SettingsManager.cs:19-22 | A new manager holds exactly what the parameterless constructor builds, and that object has every property of the type. |
| `SettingsManager.SerializeToHash` | Data/SettingsManager.cs:24-38 | There is exactly one key per property without `[IgnoreSetting]`, with no getter or setter filter. Each key holds that property's encoding. The call raises exactly when such a property has no getter, and then for that property. |
| `SettingsManager.DeserializeFromHash` | Data/SettingsManager.cs:40-68 | Updates the held object in place. `[IgnoreSetting]` properties never change. A property with no key and no default keeps its previous value. Names that are not properties are untouched. An exception escapes exactly when some persisted property's decode, conversion or setter fails. Every other property ends as its decision says, or unchanged after the exception. |
| `SettingsManager.UpdateStopsAtFirstFailure` | Data/SettingsManager.cs:45-67 | The in-place update stops at the first failing property. Without an exception every property is settled. With one, it is the failure of some property `f`: every property before `f` is set as decided, and `f` and every later property keep their previous value. |
| `SettingsManager.PersistedOrder` | Data/SettingsManager.cs:24-38 | The names the map is enumerated in (insertion order, since nothing is removed). Every persisted property's name appears, nothing but persisted names appears, and with unique property names no name appears twice. |
| `SettingsManager.PersistedOrderAppend` | Data/SettingsManager.cs:29-37 | Names are listed in property order: the order for a concatenation of properties is the order for the first part followed by the order for the second. |
| `SettingsManager.PersistedOrderOne` | Data/SettingsManager.cs:31-36 | One property contributes its name exactly when it is not `[IgnoreSetting]`. |
| `SettingsManager.SerializeToIni` | Data/SettingsManager.cs:74-82 | Writing raises exactly when building the map raises. Otherwise the text is the lines `SettingLines` written one after the other, each followed by `\r\n`. |
| `SettingsManager.RenderedSettingLines` | Data/SettingsManager.cs:76-80 | The lines written are, in persisted order, one `name=value` line per persisted property, where the value is the JSON encoding of that property's current value. |
| `SettingsManager.SettingLinesSingle` | Data/SettingsManager.cs:79 | When every persisted name is a valid key and every encoded value has no line break, no written line has one. |
| `SettingsManager.IniTextRoundTrip` | Data/SettingsManager.cs:74-106 | When every persisted name is a valid INI key and every encoded value has no line break, reading the written text back line by line gives exactly the map that was written. |
| `SettingsManager.SettingsRoundTrip` | Data/SettingsManager.cs:24-106 | Suppose every persisted property has a getter and a setter, a valid key, and a value the codec encodes without a line break, gives back, and the type accepts. Then loading the saved text into any manager of the same type raises nothing, restores every persisted property, and leaves `[IgnoreSetting]` properties of that manager as they were. |
| `SettingsManager.ReadOnlySettingBreaksReload` | Data/SettingsManager.cs:30-56 | A persisted property without a setter is still written to the map, and reading that same map back raises. |
| `Ini.IsCommentMatchesPattern` | Data/SettingsManager.cs:72 | The comment matcher accepts a line exactly when a `;` in it is preceded only by whitespace, which is the pattern `^\s*;`. |
| `Ini.IndexOf` | Data/SettingsManager.cs:97 | Returns -1 exactly when the character is absent. Otherwise it returns the position of its first occurrence. |
| `Ini.ParseLine` | Data/SettingsManager.cs:91-101 | A line gives a key and value exactly when it is not a comment and its first `=` is not at index 0. The key is then non-empty and free of `=`, and key, `=` and value make up the whole line. |
| `Ini.ParseIni` | Data/SettingsManager.cs:86-104 | A key is in the parsed map exactly when some line defines it. The value under a key is the one on the last line defining it. |
| `Ini.RenderIni` | Data/SettingsManager.cs:77-80 | One line per key of the order, in that order: line `i` is `key=value` for the `i`-th key. |
| `Ini.IniLineSingle` | Data/SettingsManager.cs:79 | The line written for a valid key and a value without a line break holds no line break. |
| `Ini.ParseFromSpec` | Data/SettingsManager.cs:86-104 | A key is in the parsed map exactly when some line defines it. Its value comes from the last line that defines it. |
| `Ini.ParseFromKeys` | Data/SettingsManager.cs:86-104 | Reading lines into a map adds exactly the keys some line defines. |
| `Ini.ParseFromLastWins` | Data/SettingsManager.cs:88-102 | The value under a key is the one given by the last line that defines it. |
| `Ini.ParseFromUntouched` | Data/SettingsManager.cs:86-104 | A key that no line defines keeps the value it already had. |
| `Ini.IgnoredLineDroppable` | Data/SettingsManager.cs:88-104 | A comment, a line without `=`, or a line starting with `=` can be removed from the file without changing what is read. |
| `Ini.LineRoundTrip` | Data/SettingsManager.cs:79-103 | The line written for a valid key reads back as that exact key and value. |
| `Ini.RenderParseRoundTrip` | Data/SettingsManager.cs:74-106 | Writing every entry of a map whose keys are valid and reading the lines back gives exactly that map. |
| `Ini.CommentWithEqualsExample` | Data/SettingsManager.cs:91-94 | `  ;x=1` is skipped, even though it holds `=`. |
| `Ini.MalformedLineExamples` | Data/SettingsManager.cs:97-98 | `=1` (the `=` is at index 0) and `ab` (there is no `=`) contribute nothing. |
| `Ini.UntrimmedExamples` | Data/SettingsManager.cs:100-101 | ` a = b ` reads as key ` a ` and value ` b `. `a=b=c` reads as key `a` and value `b=c`. |
| `Ini.DuplicateKeyExample` | Data/SettingsManager.cs:102 | `A=1` followed by `A=2` reads as `{A: "2"}`. |
| `Ini.CommentExample` | Data/SettingsManager.cs:88-94 | Comment lines, with or without leading whitespace, are skipped. |
| `Ini.CommentsDropped` | Data/SettingsManager.cs:91-94 | Two comment lines around a data line can be removed without changing what is read. |
| `TextLines.WriteLines` | Data/SettingsManager.cs:77-81 | No lines give empty text, and the text for one or more lines ends with the newline `\r\n`. What it writes is read back by `TextLines.ReadWriteLines`. |
| `TextLines.BreakAt` | Data/SettingsManager.cs:88 | The end of the first line: no terminator comes before it, and a terminator stands at it unless it is the end of the text. |
| `TextLines.ReadLines` | Data/SettingsManager.cs:88 | No line read holds a line terminator, and an empty text reads as no lines. |
| `TextLines.ReadLinesLast` | Data/SettingsManager.cs:88 | A non-empty text without a terminator reads as exactly that one line, so a last line without a terminator is still returned. |
| `TextLines.ReadLinesStep` | Data/SettingsManager.cs:88 | A line ended by `\r\n`, `\n`, or a `\r` not followed by `\n`, is read as that line, and reading goes on right after the terminator. |
| `TextLines.BareNewlineExample` | Data/SettingsManager.cs:88 | `a\nb` reads as the two lines `a` and `b`. |
| `TextLines.ReadWriteLines` | Data/SettingsManager.cs:79-88 | Reading back the text written for lines without line breaks gives those lines. |
| `TextLines.BrokenLineSplits` | Data/SettingsManager.cs:79-88 | A written line holding `\n` reads back as two lines. |
| `PathUtils.CoerceValidFileName` | Data/PathUtils.cs:20-25 | The result is no longer than the name. Every character of it is `_` or a character of the name that is not invalid. |
| `PathUtils.ReplaceRuns` | Data/PathUtils.cs:24 | The replacement is no longer than the input. For a non-empty input, its first character is `_` when the input's first character is in the class, and the input's first character otherwise. |
| `PathUtils.RunReplaced` | Data/PathUtils.cs:24 | A maximal run of characters of the class at the front becomes one `_`, and the rest is replaced on its own. |
| `PathUtils.ReplaceRunsChars` | Data/PathUtils.cs:24 | Every character of the replacement is `_` or a character of the input outside the class. |
| `PathUtils.ReplaceRunsClean` | Data/PathUtils.cs:24 | Text without characters of the class is returned unchanged. |
| `PathUtils.ReplaceRunsCollapsesRun` | Data/PathUtils.cs:23-24 | A maximal run of invalid characters between valid text and a valid character (or the end) becomes exactly one `_`. |
| `PathUtils.ReplaceRunsSkipsClean` | Data/PathUtils.cs:23-24 | Valid characters are kept, in order, in front of whatever follows. |
| `PathUtils.FileNameIsValid` | Data/PathUtils.cs:22-24 | When `_` is itself valid, the result holds no invalid character. |
| `PathUtils.ValidFileNameUnchanged` | Data/PathUtils.cs:24 | A name without invalid characters is returned unchanged. |
| `PathUtils.FileNameIdempotent` | Data/PathUtils.cs:24 | When `_` is valid, coercing twice gives the same result as coercing once. |
| `PathUtils.ToLower` | Data/PathUtils.cs:37 | The result has the same length, and each character is the lower-case form of the input character at the same position. |
| `PathUtils.RemoveEntities` | Data/PathUtils.cs:39 | Removing entities never lengthens the text and adds no character, and text without `&` is returned unchanged. |
| `PathUtils.LoneAmpersandKept` | Data/PathUtils.cs:39 | An `&` that starts no entity is kept, and removal goes on from the character after it. |
| `PathUtils.LoneAmpersandExample` | Data/PathUtils.cs:39 | `&b` has no `;` after the word, so it is kept as it is. |
| `PathUtils.PlainHeadKept` | Data/PathUtils.cs:39 | A character other than `&` is kept, and removal goes on from the character after it. |
| `PathUtils.EntityRemoved` | Data/PathUtils.cs:39 | An entity `&word;` at the front is dropped entirely. |
| `PathUtils.RemoveEntitiesSkipsPlain` | Data/PathUtils.cs:39 | Text without `&` passes entity removal unchanged. |
| `PathUtils.KeepSlugChars` | Data/PathUtils.cs:41 | The result holds only characters of `[a-z0-9\-\s]` from the input, and every such character of the input, so no `_` survives. |
| `PathUtils.KeepSlugCharsAppend` | Data/PathUtils.cs:41 | The filter works character by character: filtering a concatenation filters each part. |
| `PathUtils.KeepSlugCharsOne` | Data/PathUtils.cs:41 | One character is kept exactly when it is in `[a-z0-9\-\s]`. |
| `PathUtils.UnderscoreDeletedExample` | Data/PathUtils.cs:41 | The filter turns `a_b` into `ab`. |
| `PathUtils.ReplaceRunsNoDoubleUnderscore` | Data/PathUtils.cs:43 | Collapsing whitespace runs in text without `_` never produces two adjacent `_`. |
| `PathUtils.TrimStartUnderscore` | Data/PathUtils.cs:45 | The result is a suffix of the input that does not start with `_`, and every character removed before it is `_`. |
| `PathUtils.TrimEndUnderscore` | Data/PathUtils.cs:50 | The result is a prefix of the input that does not end with `_`, and every character removed after it is `_`. |
| `PathUtils.CoerceValidUrl` | Data/PathUtils.cs:34-52 | Every character of the slug is in `[a-z0-9\-_]`. It is at most 80 long, neither starts nor ends with `_`, and never holds `__`. |
| `PathUtils.TwoWordsJoined` | Data/PathUtils.cs:37-50 | Two words of `[a-z0-9\-]` with any whitespace between them become the two words joined by one `_`, when that fits in 80 characters. |
| `PathUtils.WhitespaceBetweenWords` | Data/PathUtils.cs:43 | A whitespace run between two words becomes one `_`. |
| `PathUtils.PlainSlugTextKept` | Data/PathUtils.cs:37-41 | Text made of lower-case slug characters without `&` passes the lower-casing, the entity removal and the filter unchanged. |
| `PathUtils.Clip` | Data/PathUtils.cs:47-48 | The result is at most 80 long: a text over 80 characters is cut to its first 79, and shorter text is kept whole. |
| `PathUtils.FinishedSlugShaped` | Data/PathUtils.cs:43-50 | Filtered text without `_` comes out of the collapse, the trims and the clip as slug text at most 80 long with no `_` at either end and no `__`. |
| `PathUtils.SettledSlugKept` | Data/PathUtils.cs:45-50 | When the collapsed title fits in 80 characters and neither starts nor ends with `_`, the trims and the clip leave it whole. |
| `PathUtils.OnlyClipped` | Data/PathUtils.cs:45-50 | For text without `_`, trimming at the front, clipping and trimming at the end come down to the clip alone. |
| `PathUtils.CleanTitleOnlyClipped` | Data/PathUtils.cs:47-48 | A title made only of `[a-z0-9\-]` is returned whole when it is at most 80 long, and otherwise is cut to its first 79 characters. |
| `TraySettings.SaveSettings` | TrayApplication/TrayApplicationContext.cs:140-157 | Returns true exactly when the file opens for writing and the settings serialize, and then the whole file is replaced by the written text. Returns false exactly on an I/O error, leaving the disk as it was. A refused access escapes, leaving the disk as it was. A serialization failure escapes and leaves the file emptied. No other file changes. |
| `TraySettings.LoadSettings` | TrayApplication/TrayApplicationContext.cs:110-138 | A readable file updates the settings from its text and writes nothing. A file that raises an I/O error on opening gets the defaults and is left as it is. A file whose access is refused raises, with the settings and the disk unchanged. A missing file gets the defaults, which are then saved, and an exception of that save escapes. Decode and conversion failures escape. On success the result is the manager's held object. |
| `TraySettings.MissingFileBootstrap` | TrayApplication/TrayApplicationContext.cs:130-137 | For a missing file, the defaults are decoded and written to the file, and the load returns them. |
| `TraySettings.BootstrapSaveFailureIgnored` | TrayApplication/TrayApplicationContext.cs:135-137 | An I/O failure of the bootstrap save leaves the disk unchanged, and the load still succeeds. |
| `TraySettings.AccessDeniedEscapes` | TrayApplication/TrayApplicationContext.cs:117-145 | A refused access is not caught: it escapes the load both when reading an existing file and when the bootstrap save writes a missing one, and the disk is left as it was. |
| `TraySettings.DefaultsOnEmptyMap` | TrayApplication/TrayApplicationContext.cs:123-134 | On the fallback path, every persisted property takes its `[DefaultValue]` if it has one. Every other property keeps its previous value. |
| `TraySettings.ReloadAfterBootstrap` | TrayApplication/TrayApplicationContext.cs:110-157 | When the defaults round trip, loading the bootstrapped file into a new manager gives back the same persisted settings. |

## Left out

- The JSON encoding itself (Newtonsoft with type names) is a pair of functions
  in `Runtime`. So are `IsAssignableFrom` and the `TypeDescriptor` converter.
  They are foreign code, and the round-trip lemmas assume the codec property
  they need.
- The `prop.GetType()` type argument passed to the encoder is part of the
  foreign encoder call and is not modelled.
- .NET reflection, attribute lookup and `Activator.CreateInstance` are replaced
  by the descriptor table. Property names are assumed unique, because
  `Dictionary.Add` would throw on a duplicate.
- `PropertyInfo.SetValue`'s own type check is not modelled. Neither is its
  conversion of null to a value type's default. A value from the map or the
  converter is stored as given.
- The settings type `T` is taken to be a class. The constraint `where T : new()`
  (`Data/SettingsManager.cs:15`) also admits a struct. For a struct, each
  `SetValue` at `Data/SettingsManager.cs:56` and `Data/SettingsManager.cs:63`
  writes into a boxed copy, so the held object would never change. The model's
  in-place update changes the held object.
- Exceptions thrown by a property's getter or setter, which reflection wraps in
  a `TargetInvocationException`, are not modelled. Neither are exceptions of
  `JsonConvert.SerializeObject` itself, such as a self-referencing loop
  (`Data/ModelSerializer.cs:31`, `Data/SettingsManager.cs:34`): the encoder in
  `Values.Runtime` is total. In the source, such an exception would escape
  `SaveSettings` after the file is emptied, and would escape `LoadSettings`
  part-way through the update (`Data/SettingsManager.cs:56`,
  `Data/SettingsManager.cs:63`).
- Reflection.EncodeAll: raises only `NotReadable`, for an included property
  without a getter. A getter or serializer exception, which the source would
  also raise, is not modelled.
- SettingsManager.SerializeToHash: "raises exactly when a persisted property
  has no getter" holds only under the same assumption, that getters and the
  serializer do not throw.
- SettingsManager.DeserializeFromHash: the update raises only the failures
  `Reflection.DecideOutcome` lists. A setter that throws is not modelled.
- Indexed properties are not modelled.
- `\s`, `\w` and `ToLower` are modelled on ASCII only. Unicode whitespace,
  letters and culture-dependent lower-casing are not modelled.
- `Path.GetInvalidFileNameChars()` is a parameter. `Regex.Escape` leaves `]`
  and `-` unescaped, and the platform's set contains neither, so the character
  class equals the set.
- UTF-8 encoding is not modelled: a file holds characters, not bytes. The
  byte-order mark the UTF-8 writer emits, and the reader skips, is left out.
- `Environment.NewLine` is taken to be `\r\n`, the Windows newline.
- A fault is modelled as happening when the file is opened. A failure
  part-way through reading or writing is not modelled. Neither are other
  exceptions of opening a file, such as `ArgumentException` for a malformed
  path or `NotSupportedException`.
- `Reflection.ApplyAll` and `Reflection.Decide` carry no contract of their
  own. What they promise is stated by `Reflection.ApplyAllSpec`,
  `Reflection.ApplyAllStops` and `Reflection.DecideOutcome`.
- The logging in `LoadSettings` and `SaveSettings` is left out. So are the
  asynchronous wrappers (`AsyncRunner`), the tray icon and options form
  (GUI), `SingleInstance` (an OS mutex), the localized attributes
  (`ResourceManager` lookups) and `TrackedResult`. None of them is part of the
  core's logic.
- `SettingsManager.DeserializeFromIni` has no contract of its own. It is
  `DeserializeFromHash` applied to `Ini.ParseIni` of the lines
  `TextLines.ReadLines` reads from the text, and its properties are those of
  its parts.

=== FILE: chars.dfy ===
/** Character classes shared by the INI reader and the path coercions. */
module Chars {

  /** The whitespace characters `\s` matches, restricted to ASCII. */
  const SpaceChars: set<char> := {' ', '\t', '\n', '\U{B}', '\U{C}', '\r'}

  predicate IsSpace(c: char) {
    c in SpaceChars
  }
}

=== FILE: model_serializer.dfy ===
/**
 The model serializer: turns an object's public read/write properties into a
 name -> JSON text map, and builds a fresh object of a given type back from
 such a map. A property is skipped when it carries [Serialize(false)] or lacks
 a getter or a setter; a missing key falls back to the [DefaultValue], if any.
 */
module ModelSerializer {
  import opened Values
  import opened Reflection

  /** Encodes every eligible property of `model` (one the model serializer's
      policy includes) under its name. Eligible properties are readable, so no
      missing getter raises; exceptions thrown by a getter or by the JSON
      serializer itself are not modelled. */
  function SerializeModelToHash(rt: Runtime, t: ModelType, model: Instance): (hash: map<string, string>)
    requires UniqueNames(t.properties)
    requires Conforms(t.properties, model)
    ensures hash.Keys == IncludedNames(ModelSerializerPolicy, t.properties)
    ensures forall p <- t.properties :: Included(ModelSerializerPolicy, p) ==> hash[p.name] == rt.encode(model[p.name])
  {
    var r := EncodeAll(ModelSerializerPolicy, rt, t.properties, model);
    r.value
  }

  /** Constructs a fresh object of type `t`, then sets each eligible property
      from the map (decoded, converted when its type does not fit) or from its
      [DefaultValue]; the first failure aborts and no object is returned. */
  function DeserializeModelFromHash(rt: Runtime, t: ModelType, hash: map<string, string>): (r: Result<Instance>)
    requires UniqueNames(t.properties)
    ensures t.construct.None? ==> r == Failure(ConstructionError)
    ensures r.Success? <==>
              t.construct.Some? && forall p <- t.properties :: Decide(ModelSerializerPolicy, rt, p, hash).Success?
    ensures r.Success? ==>
              forall p <- t.properties :: Settled(t.construct.value, r.value, p.name, Decide(ModelSerializerPolicy, rt, p, hash))
    ensures r.Success? ==>
              forall k :: k !in Names(t.properties) ==> SameAt(t.construct.value, r.value, k)
    ensures r.Failure? && t.construct.Some? ==>
              exists p <- t.properties :: Included(ModelSerializerPolicy, p) && Decide(ModelSerializerPolicy, rt, p, hash) == Failure(r.error)
  {
    match t.construct
    case None => Failure(ConstructionError)
    case Some(made) =>
      ApplyAllSpec(ModelSerializerPolicy, rt, t.properties, hash, made);
      var applied := ApplyAll(ModelSerializerPolicy, rt, t.properties, hash, made);
      match applied.raised
      case Some(e) => Failure(e)
      case None => Success(applied.instance)
  }

  /** An excluded property, or one lacking a getter or setter, keeps the value
      the constructor gave it, whatever the map holds under its name. */
  lemma ExcludedKeepsConstructed(rt: Runtime, t: ModelType, hash: map<string, string>, p: Property)
    requires UniqueNames(t.properties)
    requires p in t.properties && !Included(ModelSerializerPolicy, p)
    requires DeserializeModelFromHash(rt, t, hash).Success?
    ensures SameAt(t.construct.value, DeserializeModelFromHash(rt, t, hash).value, p.name)
  {
  }

  /** A present key sets the property to the decoded value; a non-null value
      whose type the property does not accept goes through the converter first,
      and null is assigned unconverted. */
  lemma KeyPresentAssigned(rt: Runtime, t: ModelType, hash: map<string, string>, p: Property)
    requires UniqueNames(t.properties)
    requires p in t.properties && Included(ModelSerializerPolicy, p) && p.name in hash
    requires DeserializeModelFromHash(rt, t, hash).Success?
    ensures rt.decode(hash[p.name]).Some?
    ensures var v := rt.decode(hash[p.name]).value;
            var r := DeserializeModelFromHash(rt, t, hash).value;
            && p.name in r
            && (v.Null? ==> r[p.name] == Null)
            && (FitsType(rt, p.propertyType, v) ==> r[p.name] == v)
            && (!FitsType(rt, p.propertyType, v) ==> rt.convert(p.propertyType, v) == Some(r[p.name]))
  {
    assert Decide(ModelSerializerPolicy, rt, p, hash).Success?;
  }

  /** An absent key with a [DefaultValue(d)] sets the property to `d`. */
  lemma DefaultApplied(rt: Runtime, t: ModelType, hash: map<string, string>, p: Property)
    requires UniqueNames(t.properties)
    requires p in t.properties && Included(ModelSerializerPolicy, p) && p.name !in hash && p.defaultValue.Some?
    requires DeserializeModelFromHash(rt, t, hash).Success?
    ensures var r := DeserializeModelFromHash(rt, t, hash).value;
            p.name in r && r[p.name] == p.defaultValue.value
  {
    assert Decide(ModelSerializerPolicy, rt, p, hash) == Success(p.defaultValue);
  }

  /** An absent key without a [DefaultValue] leaves the constructed value. */
  lemma MissingKeyKeepsConstructed(rt: Runtime, t: ModelType, hash: map<string, string>, p: Property)
    requires UniqueNames(t.properties)
    requires p in t.properties && p.name !in hash && p.defaultValue.None?
    requires DeserializeModelFromHash(rt, t, hash).Success?
    ensures SameAt(t.construct.value, DeserializeModelFromHash(rt, t, hash).value, p.name)
  {
    assert Decide(ModelSerializerPolicy, rt, p, hash) == Success(None);
  }

  /** Keys that name no eligible property are ignored: maps that agree on the
      eligible names decode to the same outcome. */
  lemma UnknownKeysIgnored(rt: Runtime, t: ModelType, hash1: map<string, string>, hash2: map<string, string>)
    requires UniqueNames(t.properties)
    requires forall p <- t.properties :: Included(ModelSerializerPolicy, p) ==>
               (p.name in hash1 <==> p.name in hash2) && (p.name in hash1 ==> hash1[p.name] == hash2[p.name])
    ensures DeserializeModelFromHash(rt, t, hash1) == DeserializeModelFromHash(rt, t, hash2)
  {
    if t.construct.Some? {
      var props := t.properties;
      forall i | 0 <= i < |props|
        ensures Decide(ModelSerializerPolicy, rt, props[i], hash1) == Decide(ModelSerializerPolicy, rt, props[i], hash2)
      {
        assert props[i] in props;
      }
      ApplyAllCongruent(ModelSerializerPolicy, rt, props, hash1, props, hash2, t.construct.value);
    }
  }

  /** The property as it would be declared without a [Serialize(true)]. */
  function DropSerializeTrue(p: Property): Property {
    if p.serialize == Some(true) then p.(serialize := None) else p
  }

  /** The type as it would be declared with every [Serialize(true)] removed. */
  function WithoutSerializeTrue(t: ModelType): (t': ModelType)
    ensures |t'.properties| == |t.properties| && t'.construct == t.construct
    ensures forall i :: 0 <= i < |t.properties| ==> t'.properties[i] == DropSerializeTrue(t.properties[i])
  {
    t.(properties := seq(|t.properties|, i requires 0 <= i < |t.properties| => DropSerializeTrue(t.properties[i])))
  }

  lemma WithoutSerializeTrueShape(t: ModelType, model: Instance)
    requires UniqueNames(t.properties)
    requires Conforms(t.properties, model)
    ensures UniqueNames(WithoutSerializeTrue(t).properties)
    ensures Conforms(WithoutSerializeTrue(t).properties, model)
  {
    var props' := WithoutSerializeTrue(t).properties;
    forall q <- props' ensures q.name in model {
      var i :| 0 <= i < |props'| && props'[i] == q;
      assert t.properties[i] in t.properties;
    }
  }

  lemma WithoutSerializeTrueNames(t: ModelType)
    ensures IncludedNames(ModelSerializerPolicy, WithoutSerializeTrue(t).properties)
         == IncludedNames(ModelSerializerPolicy, t.properties)
  {
    var props := t.properties;
    var props' := WithoutSerializeTrue(t).properties;
    forall k | k in IncludedNames(ModelSerializerPolicy, props)
      ensures k in IncludedNames(ModelSerializerPolicy, props')
    {
      var q :| q in props && Included(ModelSerializerPolicy, q) && q.name == k;
      var i :| 0 <= i < |props| && props[i] == q;
      assert props'[i] in props';
    }
    forall k | k in IncludedNames(ModelSerializerPolicy, props')
      ensures k in IncludedNames(ModelSerializerPolicy, props)
    {
      var q :| q in props' && Included(ModelSerializerPolicy, q) && q.name == k;
      var i :| 0 <= i < |props'| && props'[i] == q;
      assert props[i] in props;
    }
  }

  /** [Serialize(true)] encodes exactly like having no [Serialize] attribute. */
  lemma SerializeTrueEncodesAsNoAttribute(rt: Runtime, t: ModelType, model: Instance)
    requires UniqueNames(t.properties)
    requires Conforms(t.properties, model)
    ensures UniqueNames(WithoutSerializeTrue(t).properties)
    ensures Conforms(WithoutSerializeTrue(t).properties, model)
    ensures SerializeModelToHash(rt, WithoutSerializeTrue(t), model) == SerializeModelToHash(rt, t, model)
  {
    WithoutSerializeTrueShape(t, model);
    SameEncodingKeys(rt, t, model);
    var h := SerializeModelToHash(rt, t, model);
    var h' := SerializeModelToHash(rt, WithoutSerializeTrue(t), model);
    forall k | k in h
      ensures h'[k] == h[k]
    {
      var q :| q in t.properties && Included(ModelSerializerPolicy, q) && q.name == k;
      var i :| 0 <= i < |t.properties| && t.properties[i] == q;
      SameEncodingAt(rt, t, model, i);
    }
  }

  /** Both encodings have the same names. */
  lemma SameEncodingKeys(rt: Runtime, t: ModelType, model: Instance)
    requires UniqueNames(t.properties)
    requires Conforms(t.properties, model)
    requires UniqueNames(WithoutSerializeTrue(t).properties)
    requires Conforms(WithoutSerializeTrue(t).properties, model)
    ensures SerializeModelToHash(rt, WithoutSerializeTrue(t), model).Keys == SerializeModelToHash(rt, t, model).Keys
  {
    WithoutSerializeTrueNames(t);
    assert SerializeModelToHash(rt, t, model).Keys == IncludedNames(ModelSerializerPolicy, t.properties);
    assert SerializeModelToHash(rt, WithoutSerializeTrue(t), model).Keys
        == IncludedNames(ModelSerializerPolicy, WithoutSerializeTrue(t).properties);
  }

  /** Both encodings hold the same text under the name of an eligible property. */
  lemma SameEncodingAt(rt: Runtime, t: ModelType, model: Instance, i: int)
    requires UniqueNames(t.properties)
    requires Conforms(t.properties, model)
    requires 0 <= i < |t.properties| && Included(ModelSerializerPolicy, t.properties[i])
    ensures UniqueNames(WithoutSerializeTrue(t).properties)
    ensures Conforms(WithoutSerializeTrue(t).properties, model)
    ensures var k := t.properties[i].name;
      && k in SerializeModelToHash(rt, t, model)
      && k in SerializeModelToHash(rt, WithoutSerializeTrue(t), model)
      && SerializeModelToHash(rt, WithoutSerializeTrue(t), model)[k] == SerializeModelToHash(rt, t, model)[k]
  {
    WithoutSerializeTrueShape(t, model);
    var props := t.properties;
    var props' := WithoutSerializeTrue(t).properties;
    assert props[i] in props;
    assert props'[i] in props';
  }

  /** [Serialize(true)] decodes exactly like having no [Serialize] attribute. */
  lemma SerializeTrueDecodesAsNoAttribute(rt: Runtime, t: ModelType, hash: map<string, string>)
    requires UniqueNames(t.properties)
    ensures UniqueNames(WithoutSerializeTrue(t).properties)
    ensures DeserializeModelFromHash(rt, WithoutSerializeTrue(t), hash) == DeserializeModelFromHash(rt, t, hash)
  {
    var props := t.properties;
    var props' := WithoutSerializeTrue(t).properties;
    assert UniqueNames(props');
    assert forall i :: 0 <= i < |props| ==>
      Decide(ModelSerializerPolicy, rt, props'[i], hash) == Decide(ModelSerializerPolicy, rt, props[i], hash);
    if t.construct.Some? {
      ApplyAllCongruent(ModelSerializerPolicy, rt, props', hash, props, hash, t.construct.value);
    }
  }

  /** Round trip: when the JSON codec gives back each eligible property's value
      and that value fits the declared type, decoding the encoding of `x` yields
      an object that agrees with `x` on every eligible property and keeps the
      constructed value on every other one. */
  lemma RoundTrip(rt: Runtime, t: ModelType, x: Instance)
    requires WellFormed(t) && t.construct.Some?
    requires Conforms(t.properties, x)
    requires forall p <- t.properties :: Included(ModelSerializerPolicy, p) ==>
               RoundTrips(rt, x[p.name]) && FitsType(rt, p.propertyType, x[p.name])
    ensures var r := DeserializeModelFromHash(rt, t, SerializeModelToHash(rt, t, x));
      && r.Success?
      && (forall p <- t.properties :: Included(ModelSerializerPolicy, p) ==> p.name in r.value && r.value[p.name] == x[p.name])
      && (forall p <- t.properties :: !Included(ModelSerializerPolicy, p) ==> r.value[p.name] == t.construct.value[p.name])
  {
    var hash := SerializeModelToHash(rt, t, x);
    forall p <- t.properties
      ensures Decide(ModelSerializerPolicy, rt, p, hash) ==
                (if Included(ModelSerializerPolicy, p) then Success(Some(x[p.name])) else Success(None))
    {
      if Included(ModelSerializerPolicy, p) {
        assert p.name in hash;
        assert hash[p.name] == rt.encode(x[p.name]);
      }
    }
  }
}

=== FILE: path_utils.dfy ===
/**
 Path and URL coercion: making a file name out of arbitrary text by replacing
 runs of characters the file system forbids, and making a URL slug out of a
 title (lower-case, entities removed, only letters, digits and dashes kept,
 whitespace runs turned into one `_`, `_` trimmed from both ends, clipped).
 */
module PathUtils {
  import opened Chars

  // ---------------------------------------------------------------------------
  // Replacing runs of a character class with one `_`
  // ---------------------------------------------------------------------------

  /** Length of the run of characters of `cls` that starts `s`. */
  function RunLength(s: string, cls: set<char>): (n: nat)
    ensures n <= |s|
    ensures forall i :: 0 <= i < n ==> s[i] in cls
    ensures n == |s| || s[n] !in cls
    decreases |s|
  {
    if |s| == 0 || s[0] !in cls then 0 else 1 + RunLength(s[1..], cls)
  }

  /** The replacement of the pattern `[cls]+` by `_`: each maximal run of
      characters of `cls` becomes one `_`, every other character is kept. */
  function ReplaceRuns(s: string, cls: set<char>): (r: string)
    ensures |r| <= |s|
    ensures |s| > 0 ==> |r| > 0 && r[0] == (if s[0] in cls then '_' else s[0])
    decreases |s|
  {
    if |s| == 0 then ""
    else if s[0] in cls then "_" + ReplaceRuns(s[RunLength(s, cls)..], cls)
    else [s[0]] + ReplaceRuns(s[1..], cls)
  }

  /** Every output character is a `_` or a character of the input outside the class. */
  lemma {:induction false} ReplaceRunsChars(s: string, cls: set<char>)
    ensures forall c <- ReplaceRuns(s, cls) :: c == '_' || (c in s && c !in cls)
    decreases |s|
  {
    if |s| > 0 {
      var n := if s[0] in cls then RunLength(s, cls) else 1;
      var w := s[n..];
      ReplaceRunsChars(w, cls);
      assert forall c <- w :: c in s;
    }
  }

  /** Text without characters of `cls` passes through unchanged, in front of
      whatever follows it. */
  lemma {:induction false} ReplaceRunsSkipsClean(u: string, w: string, cls: set<char>)
    requires forall c <- u :: c !in cls
    ensures ReplaceRuns(u + w, cls) == u + ReplaceRuns(w, cls)
    decreases |u|
  {
    if |u| > 0 {
      var s := u + w;
      assert s[0] == u[0] && u[0] in u;
      assert s[1..] == u[1..] + w;
      assert ReplaceRuns(s, cls) == [s[0]] + ReplaceRuns(s[1..], cls);
      assert forall c <- u[1..] :: c !in cls by {
        forall c <- u[1..] ensures c !in cls { assert c in u; }
      }
      ReplaceRunsSkipsClean(u[1..], w, cls);
      assert u == [u[0]] + u[1..];
    } else {
      assert u + w == w;
    }
  }

  /** A maximal run between clean text and a clean character (or the end)
      becomes exactly one `_`. */
  lemma ReplaceRunsCollapsesRun(u: string, run: string, w: string, cls: set<char>)
    requires forall c <- u :: c !in cls
    requires |run| > 0 && forall c <- run :: c in cls
    requires |w| == 0 || w[0] !in cls
    ensures ReplaceRuns(u + run + w, cls) == u + "_" + ReplaceRuns(w, cls)
  {
    ReplaceRunsSkipsClean(u, run + w, cls);
    assert u + run + w == u + (run + w);
    RunReplaced(run, w, cls);
    Associative(u, "_", ReplaceRuns(w, cls));
  }

  /** Proof helper, not a fact about slugs: concatenation is associative.
      Citing it keeps the solver from searching for the regrouping itself. */
  lemma Associative(a: string, b: string, c: string)
    ensures a + (b + c) == a + b + c
  {
  }

  /** A maximal run at the front becomes one `_`. */
  lemma RunReplaced(run: string, w: string, cls: set<char>)
    requires |run| > 0 && forall c <- run :: c in cls
    requires |w| == 0 || w[0] !in cls
    ensures ReplaceRuns(run + w, cls) == "_" + ReplaceRuns(w, cls)
  {
    var s := run + w;
    assert s[0] == run[0] && run[0] in run;
    RunLengthExact(run, w, cls);
    assert s[|run|..] == w;
  }

  lemma {:induction false} RunLengthExact(run: string, w: string, cls: set<char>)
    requires forall c <- run :: c in cls
    requires |w| == 0 || w[0] !in cls
    ensures RunLength(run + w, cls) == |run|
    decreases |run|
  {
    if |run| > 0 {
      assert run[0] in run;
      assert (run + w)[1..] == run[1..] + w;
      assert forall c <- run[1..] :: c in run;
      RunLengthExact(run[1..], w, cls);
    } else {
      assert run + w == w;
    }
  }

  /** Text without characters of `cls` is returned unchanged. */
  lemma ReplaceRunsClean(s: string, cls: set<char>)
    requires forall c <- s :: c !in cls
    ensures ReplaceRuns(s, cls) == s
  {
    ReplaceRunsSkipsClean(s, "", cls);
    assert s + "" == s;
  }

  /** No two `_` stand next to each other. */
  predicate NoDoubleUnderscore(s: string) {
    forall i :: 0 <= i < |s| - 1 ==> !(s[i] == '_' && s[i + 1] == '_')
  }

  /** When the input has no `_` and `_` is outside the class, the output never
      holds two `_` in a row: each `_` stands for a whole run. */
  lemma {:induction false} ReplaceRunsNoDoubleUnderscore(s: string, cls: set<char>)
    requires '_' !in s && '_' !in cls
    ensures NoDoubleUnderscore(ReplaceRuns(s, cls))
    decreases |s|
  {
    if |s| > 0 {
      var r := ReplaceRuns(s, cls);
      if s[0] in cls {
        var n := RunLength(s, cls);
        var w := s[n..];
        assert forall c <- w :: c in s;
        ReplaceRunsNoDoubleUnderscore(w, cls);
        var rw := ReplaceRuns(w, cls);
        assert r == "_" + rw;
        if |w| > 0 {
          assert w[0] !in cls && w[0] in s;
          assert rw[0] == w[0] && rw[0] != '_';
        }
        forall i | 0 <= i < |r| - 1 ensures !(r[i] == '_' && r[i + 1] == '_') {
          if i > 0 { assert r[i] == rw[i - 1] && r[i + 1] == rw[i]; }
        }
      } else {
        var w := s[1..];
        assert forall c <- w :: c in s;
        ReplaceRunsNoDoubleUnderscore(w, cls);
        var rw := ReplaceRuns(w, cls);
        assert r == [s[0]] + rw;
        forall i | 0 <= i < |r| - 1 ensures !(r[i] == '_' && r[i + 1] == '_') {
          if i > 0 { assert r[i] == rw[i - 1] && r[i + 1] == rw[i]; }
        }
      }
    }
  }

  // ---------------------------------------------------------------------------
  // File names
  // ---------------------------------------------------------------------------

  /** Replaces each run of characters from `invalid` (the platform's invalid
      file-name characters) by one `_`. */
  function CoerceValidFileName(filename: string, invalid: set<char>): (r: string)
    ensures |r| <= |filename|
    ensures forall c <- r :: c == '_' || (c in filename && c !in invalid)
  {
    ReplaceRunsChars(filename, invalid);
    ReplaceRuns(filename, invalid)
  }

  /** When `_` is itself a valid character, the result holds no invalid one. */
  lemma FileNameIsValid(filename: string, invalid: set<char>)
    requires '_' !in invalid
    ensures forall c <- CoerceValidFileName(filename, invalid) :: c !in invalid
  {
  }

  /** A name without invalid characters is returned unchanged. */
  lemma ValidFileNameUnchanged(filename: string, invalid: set<char>)
    requires forall c <- filename :: c !in invalid
    ensures CoerceValidFileName(filename, invalid) == filename
  {
    ReplaceRunsClean(filename, invalid);
  }

  /** Coercing twice is coercing once, when `_` is a valid character. */
  lemma FileNameIdempotent(filename: string, invalid: set<char>)
    requires '_' !in invalid
    ensures CoerceValidFileName(CoerceValidFileName(filename, invalid), invalid)
         == CoerceValidFileName(filename, invalid)
  {
    ValidFileNameUnchanged(CoerceValidFileName(filename, invalid), invalid);
  }

  // ---------------------------------------------------------------------------
  // URL slugs
  // ---------------------------------------------------------------------------

  const MaxUrlLength := 80

  function LowerChar(c: char): char {
    if 'A' <= c <= 'Z' then (c as int + 32) as char else c
  }

  /** Lower-casing, of ASCII letters only. */
  function ToLower(s: string): (r: string)
    ensures |r| == |s|
    ensures forall i :: 0 <= i < |s| ==> r[i] == LowerChar(s[i])
  {
    seq(|s|, i requires 0 <= i < |s| => LowerChar(s[i]))
  }

  /** A character `\w` matches, among ASCII characters. */
  predicate IsWordChar(c: char) {
    'a' <= c <= 'z' || 'A' <= c <= 'Z' || '0' <= c <= '9' || c == '_'
  }

  function WordRun(s: string): (n: nat)
    ensures n <= |s|
    ensures forall i :: 0 <= i < n ==> IsWordChar(s[i])
    ensures n == |s| || !IsWordChar(s[n])
    decreases |s|
  {
    if |s| == 0 || !IsWordChar(s[0]) then 0 else 1 + WordRun(s[1..])
  }

  /** `s` starts with an entity `&\w+;` of length `n`. Since `\w+` is greedy
      and `;` is not a word character, the only candidate is the maximal run. */
  predicate EntityAt(s: string, n: nat) {
    |s| > 0 && s[0] == '&' && var w := WordRun(s[1..]); w > 0 && w + 1 < |s| && s[w + 1] == ';' && n == w + 2
  }

  function EntityLength(s: string): (n: nat)
    requires |s| > 0 && s[0] == '&'
    ensures n == 0 || (EntityAt(s, n) && n <= |s|)
  {
    var w := WordRun(s[1..]);
    if w > 0 && w + 1 < |s| && s[w + 1] == ';' then w + 2 else 0
  }

  /** Removes the matches of `&\w+;`, scanning left to right. */
  function RemoveEntities(s: string): (r: string)
    ensures |r| <= |s|
    ensures forall c <- r :: c in s
    ensures '&' !in s ==> r == s
    decreases |s|
  {
    if |s| == 0 then ""
    else if s[0] == '&' && EntityLength(s) > 0 then
      var rest := s[EntityLength(s)..];
      assert forall c <- rest :: c in s;
      RemoveEntities(rest)
    else
      assert forall c <- s[1..] :: c in s;
      [s[0]] + RemoveEntities(s[1..])
  }

  /** An entity at the front is dropped entirely. */
  lemma EntityRemoved(word: string, rest: string)
    requires |word| > 0 && forall c <- word :: IsWordChar(c)
    ensures RemoveEntities("&" + word + ";" + rest) == RemoveEntities(rest)
  {
    var s := "&" + word + ";" + rest;
    assert s[1..] == word + (";" + rest);
    WordRunExact(word, ";" + rest);
    var w := WordRun(s[1..]);
    assert s[w + 1] == ';';
    assert s[w + 2..] == rest;
  }

  /** An `&` that starts no entity is kept, and the scan goes on right after
      it: `&b` and `tom & jerry` keep their `&`. */
  lemma LoneAmpersandKept(s: string)
    requires |s| > 0 && s[0] == '&' && EntityLength(s) == 0
    ensures RemoveEntities(s) == "&" + RemoveEntities(s[1..])
  {
  }

  /** `&b` has no `;`, so it is not an entity and is kept whole. */
  lemma LoneAmpersandExample()
    ensures RemoveEntities("&b") == "&b"
  {
    LoneAmpersandKept("&b");
    assert "&b"[1..] == "b";
    RemoveEntitiesSkipsPlain("b", "");
    assert "b" + "" == "b";
  }

  lemma {:induction false} WordRunExact(word: string, w: string)
    requires forall c <- word :: IsWordChar(c)
    requires |w| == 0 || !IsWordChar(w[0])
    ensures WordRun(word + w) == |word|
    decreases |word|
  {
    if |word| > 0 {
      assert word[0] in word;
      assert (word + w)[1..] == word[1..] + w;
      assert forall c <- word[1..] :: c in word;
      WordRunExact(word[1..], w);
    } else {
      assert word + w == w;
    }
  }

  /** Text without `&` passes through unchanged. */
  lemma {:induction false} RemoveEntitiesSkipsPlain(u: string, w: string)
    requires '&' !in u
    ensures RemoveEntities(u + w) == u + RemoveEntities(w)
    decreases |u|
  {
    if |u| > 0 {
      var t := u[1..] + w;
      assert RemoveEntities(u + w) == [u[0]] + RemoveEntities(t) by {
        assert u[0] in u;
        assert u + w == [u[0]] + t;
        PlainHeadKept(u[0], t);
      }
      assert RemoveEntities(t) == u[1..] + RemoveEntities(w) by {
        assert '&' !in u[1..] by {
          assert forall c <- u[1..] :: c in u;
        }
        RemoveEntitiesSkipsPlain(u[1..], w);
      }
      HeadTailAppend(u, RemoveEntities(w));
    } else {
      assert u + w == w;
    }
  }

  /** Proof helper, not a fact about slugs: splitting off the head of the
      first part of a concatenation. */
  lemma HeadTailAppend(u: string, v: string)
    requires |u| > 0
    ensures [u[0]] + (u[1..] + v) == u + v
  {
    assert u == [u[0]] + u[1..];
  }

  /** A character other than `&` is copied and the scan goes on after it. */
  lemma PlainHeadKept(c: char, t: string)
    requires c != '&'
    ensures RemoveEntities([c] + t) == [c] + RemoveEntities(t)
  {
    assert ([c] + t)[1..] == t;
  }

  /** A character the slug keeps through filtering: `[a-z0-9\-\s]`. */
  predicate IsSlugSource(c: char) {
    'a' <= c <= 'z' || '0' <= c <= '9' || c == '-' || IsSpace(c)
  }

  /** Removes every character outside `[a-z0-9\-\s]`; in particular every `_`. */
  function KeepSlugChars(s: string): (r: string)
    ensures |r| <= |s|
    ensures forall c <- r :: IsSlugSource(c) && c in s
    ensures forall c <- s :: IsSlugSource(c) ==> c in r
    ensures '_' !in r
    decreases |s|
  {
    if |s| == 0 then ""
    else
      assert forall c <- s[1..] :: c in s;
      assert forall c <- s :: c == s[0] || c in s[1..];
      if IsSlugSource(s[0]) then [s[0]] + KeepSlugChars(s[1..]) else KeepSlugChars(s[1..])
  }

  /** The filter works character by character: a concatenation is filtered
      piecewise. */
  lemma {:induction false} KeepSlugCharsAppend(a: string, b: string)
    ensures KeepSlugChars(a + b) == KeepSlugChars(a) + KeepSlugChars(b)
    decreases |a|
  {
    if |a| > 0 {
      assert (a + b)[0] == a[0];
      assert (a + b)[1..] == a[1..] + b;
      KeepSlugCharsAppend(a[1..], b);
    } else {
      assert a + b == b;
    }
  }

  /** One character is kept exactly when it is a letter, digit, dash or space. */
  lemma KeepSlugCharsOne(c: char)
    ensures KeepSlugChars([c]) == if IsSlugSource(c) then [c] else []
  {
    assert [c][1..] == [];
  }

  function TrimStartUnderscore(s: string): (r: string)
    ensures |r| <= |s| && r == s[|s| - |r|..]
    ensures |r| == 0 || r[0] != '_'
    ensures forall i :: 0 <= i < |s| - |r| ==> s[i] == '_'
    decreases |s|
  {
    if |s| > 0 && s[0] == '_' then TrimStartUnderscore(s[1..]) else s
  }

  function TrimEndUnderscore(s: string): (r: string)
    ensures |r| <= |s| && r == s[..|r|]
    ensures |r| == 0 || r[|r| - 1] != '_'
    ensures forall i :: |r| <= i < |s| ==> s[i] == '_'
    decreases |s|
  {
    if |s| > 0 && s[|s| - 1] == '_' then TrimEndUnderscore(s[..|s| - 1]) else s
  }

  /** A title longer than the limit is cut to one less than the limit. */
  function Clip(s: string): (r: string)
    ensures |r| <= MaxUrlLength
    ensures |s| > MaxUrlLength ==> r == s[..MaxUrlLength - 1]
    ensures |s| <= MaxUrlLength ==> r == s
  {
    if |s| > MaxUrlLength then s[..MaxUrlLength - 1] else s
  }

  /** A character of a slug: `[a-z0-9\-_]`. */
  predicate IsUrlChar(c: char) {
    'a' <= c <= 'z' || '0' <= c <= '9' || c == '-' || c == '_'
  }

  /** The title as it stands after whitespace has been collapsed and before
      trimming and clipping. */
  function Collapsed(title: string): string {
    ReplaceRuns(KeepSlugChars(RemoveEntities(ToLower(title))), SpaceChars)
  }

  /** Every character is a slug character and no two `_` are adjacent. */
  predicate SlugShaped(s: string) {
    (forall c <- s :: IsUrlChar(c)) && NoDoubleUnderscore(s)
  }

  /** Collapsing the whitespace of filtered text gives slug-shaped text. */
  lemma CollapsedIsSlugShaped(kept: string)
    requires forall c <- kept :: IsSlugSource(c)
    requires '_' !in kept
    ensures SlugShaped(ReplaceRuns(kept, SpaceChars))
  {
    ReplaceRunsNoDoubleUnderscore(kept, SpaceChars);
    ReplaceRunsChars(kept, SpaceChars);
  }

  /** Any slice of slug-shaped text is slug-shaped. */
  lemma SliceIsSlugShaped(s: string, i: nat, j: nat)
    requires i <= j <= |s|
    requires SlugShaped(s)
    ensures SlugShaped(s[i..j])
  {
    var t := s[i..j];
    forall c <- t ensures IsUrlChar(c) {
      var k :| 0 <= k < |t| && t[k] == c;
      assert s[i + k] in s;
    }
    forall k | 0 <= k < |t| - 1 ensures !(t[k] == '_' && t[k + 1] == '_') {
      assert t[k] == s[i + k] && t[k + 1] == s[i + k + 1];
    }
  }

  /** Turns a title into a URL slug. */
  function CoerceValidUrl(title: string): (r: string)
    ensures forall c <- r :: IsUrlChar(c)
    ensures |r| <= MaxUrlLength
    ensures |r| > 0 ==> r[0] != '_' && r[|r| - 1] != '_'
    ensures NoDoubleUnderscore(r)
  {
    var kept := KeepSlugChars(RemoveEntities(ToLower(title)));
    FinishedSlugShaped(kept);
    TrimEndUnderscore(Clip(TrimStartUnderscore(ReplaceRuns(kept, SpaceChars))))
  }

  /** The stages after the filter turn filtered text into a slug: collapsing,
      trimming at the front, clipping and trimming at the end. */
  lemma FinishedSlugShaped(kept: string)
    requires forall c <- kept :: IsSlugSource(c)
    requires '_' !in kept
    ensures var r := TrimEndUnderscore(Clip(TrimStartUnderscore(ReplaceRuns(kept, SpaceChars))));
      && SlugShaped(r) && |r| <= MaxUrlLength
      && (|r| > 0 ==> r[0] != '_' && r[|r| - 1] != '_')
  {
    CollapsedIsSlugShaped(kept);
    TrimmedSlugShaped(ReplaceRuns(kept, SpaceChars));
    ClippedSlugShaped(TrimStartUnderscore(ReplaceRuns(kept, SpaceChars)));
  }

  /** Trimming `_` at the front keeps text slug-shaped. */
  lemma TrimmedSlugShaped(s: string)
    requires SlugShaped(s)
    ensures SlugShaped(TrimStartUnderscore(s))
  {
    var t := TrimStartUnderscore(s);
    SliceIsSlugShaped(s, |s| - |t|, |s|);
  }

  /** Clipping and trimming `_` at the end give a slug that fits and has no `_`
      at either end, when the text did not start with `_`. */
  lemma ClippedSlugShaped(t: string)
    requires SlugShaped(t) && (|t| == 0 || t[0] != '_')
    ensures var r := TrimEndUnderscore(Clip(t));
      && SlugShaped(r) && |r| <= MaxUrlLength
      && (|r| > 0 ==> r[0] != '_' && r[|r| - 1] != '_')
  {
    var r := TrimEndUnderscore(Clip(t));
    assert r == t[0..|r|];
    SliceIsSlugShaped(t, 0, |r|);
  }

  /** A title already made of `[a-z0-9\-]` only is at most clipped: kept whole up
      to 80 characters, cut to 79 beyond. */
  lemma CleanTitleOnlyClipped(title: string)
    requires forall c <- title :: IsWordLetter(c)
    ensures CoerceValidUrl(title) == if |title| > MaxUrlLength then title[..MaxUrlLength - 1] else title
  {
    assert CoerceValidUrl(title) == TrimEndUnderscore(Clip(TrimStartUnderscore(title))) by {
      CleanTitleCollapsed(title);
      CoerceValidUrlSteps(title);
    }
    assert '_' !in title by {
      forall c <- title ensures c != '_' {
        assert IsWordLetter(c);
      }
    }
    OnlyClipped(title);
  }

  /** Text without `_` is only clipped by the trimming and clipping stages. */
  lemma OnlyClipped(t: string)
    requires '_' !in t
    ensures TrimEndUnderscore(Clip(TrimStartUnderscore(t))) == Clip(t)
  {
    assert TrimStartUnderscore(t) == t by {
      if |t| > 0 {
        assert t[0] in t;
      }
    }
    assert '_' !in Clip(t) by {
      assert forall c <- Clip(t) :: c in t;
    }
    NoTrailingUnderscoreKept(Clip(t));
  }

  /** Text without `_` loses nothing to the trailing trim. */
  lemma NoTrailingUnderscoreKept(s: string)
    requires '_' !in s
    ensures TrimEndUnderscore(s) == s
  {
    if |s| > 0 {
      assert s[|s| - 1] in s;
    }
  }

  /** The slug is the collapsed title, trimmed at the front, clipped, and
      trimmed at the end. */
  lemma CoerceValidUrlSteps(title: string)
    ensures CoerceValidUrl(title) == TrimEndUnderscore(Clip(TrimStartUnderscore(Collapsed(title))))
  {
  }

  /** Text without upper-case ASCII letters is its own lower case. */
  lemma LowerCaseKept(s: string)
    requires forall c <- s :: !('A' <= c <= 'Z')
    ensures ToLower(s) == s
  {
    forall i | 0 <= i < |s| ensures ToLower(s)[i] == s[i] {
      assert s[i] in s;
    }
  }

  /** A letter, digit or dash of a slug. */
  predicate IsWordLetter(c: char) {
    'a' <= c <= 'z' || '0' <= c <= '9' || c == '-'
  }

  /** Collapsing leaves a title made of `[a-z0-9\-]` as it is. */
  lemma CleanTitleCollapsed(title: string)
    requires forall c <- title :: IsWordLetter(c)
    ensures Collapsed(title) == title
  {
    forall c <- title ensures IsSlugSource(c) && c !in SpaceChars {
      assert IsWordLetter(c);
    }
    PlainSlugTextKept(title);
    ReplaceRunsClean(title, SpaceChars);
  }

  /** Text of lower-case slug characters without `&` passes the lower-casing,
      the entity removal and the filter unchanged. */
  lemma PlainSlugTextKept(s: string)
    requires forall c <- s :: IsSlugSource(c) && !('A' <= c <= 'Z') && c != '&'
    ensures KeepSlugChars(RemoveEntities(ToLower(s))) == s
  {
    LowerCaseKept(s);
    assert '&' !in s;
    RemoveEntitiesSkipsPlain(s, "");
    assert s + "" == s;
    KeepAllSlug(s);
  }

  /** Two words of `[a-z0-9\-]` separated by whitespace are joined by one `_`,
      whatever the whitespace, when the result fits the length limit. */
  lemma TwoWordsJoined(w1: string, space: string, w2: string)
    requires |w1| > 0 && |w2| > 0
    requires forall c <- w1 :: IsWordLetter(c)
    requires forall c <- w2 :: IsWordLetter(c)
    requires |space| > 0 && forall c <- space :: IsSpace(c)
    requires |w1| + 1 + |w2| <= MaxUrlLength
    ensures CoerceValidUrl(w1 + space + w2) == w1 + "_" + w2
  {
    var joined := w1 + "_" + w2;
    assert Collapsed(w1 + space + w2) == joined by {
      TwoWordsCollapsed(w1, space, w2);
    }
    assert joined[0] != '_' by {
      assert joined[0] == w1[0] && w1[0] in w1;
    }
    assert joined[|joined| - 1] != '_' by {
      assert joined[|joined| - 1] == w2[|w2| - 1] && w2[|w2| - 1] in w2;
    }
    SettledSlugKept(w1 + space + w2);
  }

  /** When collapsing already gives a slug that fits and neither starts nor
      ends with `_`, trimming and clipping leave it as it is. */
  lemma SettledSlugKept(title: string)
    requires var c := Collapsed(title); |c| <= MaxUrlLength && (|c| == 0 || (c[0] != '_' && c[|c| - 1] != '_'))
    ensures CoerceValidUrl(title) == Collapsed(title)
  {
    var c := Collapsed(title);
    assert CoerceValidUrl(title) == TrimEndUnderscore(Clip(TrimStartUnderscore(c))) by {
      CoerceValidUrlSteps(title);
    }
    assert TrimStartUnderscore(c) == c;
    assert Clip(c) == c;
  }

  /** Collapsing two words separated by whitespace puts one `_` between them. */
  lemma TwoWordsCollapsed(w1: string, space: string, w2: string)
    requires forall c <- w1 :: IsWordLetter(c)
    requires forall c <- w2 :: IsWordLetter(c)
    requires |space| > 0 && forall c <- space :: IsSpace(c)
    ensures Collapsed(w1 + space + w2) == w1 + "_" + w2
  {
    var title := w1 + space + w2;
    assert KeepSlugChars(RemoveEntities(ToLower(title))) == title by {
      forall c <- title ensures IsSlugSource(c) && !('A' <= c <= 'Z') && c != '&' {
        assert c in w1 || c in space || c in w2;
      }
      PlainSlugTextKept(title);
    }
    assert ReplaceRuns(title, SpaceChars) == w1 + "_" + w2 by {
      WhitespaceBetweenWords(w1, space, w2);
    }
  }

  /** The whitespace between two words becomes one `_`. */
  lemma WhitespaceBetweenWords(w1: string, space: string, w2: string)
    requires forall c <- w1 :: IsWordLetter(c)
    requires forall c <- w2 :: IsWordLetter(c)
    requires |space| > 0 && forall c <- space :: IsSpace(c)
    ensures ReplaceRuns(w1 + space + w2, SpaceChars) == w1 + "_" + w2
  {
    assert forall c <- w1 :: c !in SpaceChars by {
      forall c <- w1 ensures c !in SpaceChars { assert IsWordLetter(c); }
    }
    assert forall c <- w2 :: c !in SpaceChars by {
      forall c <- w2 ensures c !in SpaceChars { assert IsWordLetter(c); }
    }
    ReplaceRunsCollapsesRun(w1, space, w2, SpaceChars);
    ReplaceRunsClean(w2, SpaceChars);
  }

  lemma {:induction false} KeepAllSlug(s: string)
    requires forall c <- s :: IsSlugSource(c)
    ensures KeepSlugChars(s) == s
    decreases |s|
  {
    if |s| > 0 {
      assert forall c <- s[1..] :: c in s;
      KeepAllSlug(s[1..]);
      assert s == [s[0]] + s[1..];
    }
  }

  /** An `_` in a title is deleted by the filter, not kept: `a_b` keeps `ab`. */
  lemma UnderscoreDeletedExample()
    ensures KeepSlugChars("a_b") == "ab"
  {
    assert "a_b"[1..] == "_b";
    assert "_b"[1..] == "b";
    assert "b"[1..] == "";
  }
}

=== FILE: reflection.dfy ===
/**
 The reflective view both serializers share. Reflection over a type's public
 instance properties becomes an explicit table of property descriptors; an
 object becomes a map from property name to value. The two serializers differ
 only in which properties they include (`Policy`); reading one property into
 the string map and setting one property from it are defined here once.
 */
module Reflection {
  import opened Values

  /** One public instance property and the attributes on it. */
  datatype Property = Property(
    name: string,
    propertyType: TypeName,
    canRead: bool,                // has a getter
    canWrite: bool,               // has a setter
    serialize: Option<bool>,      // [Serialize(b)], when present
    ignoreSetting: bool,          // [IgnoreSetting] present
    defaultValue: Option<Value>   // [DefaultValue(d)], when present
  )

  /** An object: the current value of each of its properties. */
  type Instance = map<string, Value>

  /** A type: its properties in enumeration order, and what its parameterless
      constructor builds (None when it has no such constructor). */
  datatype ModelType = ModelType(properties: seq<Property>, construct: Option<Instance>)

  /** Property names are unique within a type. */
  predicate UniqueNames(props: seq<Property>) {
    forall i, j :: 0 <= i < j < |props| ==> props[i].name != props[j].name
  }

  /** An object has a value for every property of its type. */
  predicate Conforms(props: seq<Property>, inst: Instance) {
    forall p <- props :: p.name in inst
  }

  predicate WellFormed(t: ModelType) {
    && UniqueNames(t.properties)
    && (t.construct.Some? ==> Conforms(t.properties, t.construct.value))
  }

  /** Which of the two serializers is selecting properties. */
  datatype Policy = ModelSerializerPolicy | SettingsManagerPolicy

  /** The property takes part in encoding and decoding under `policy`. The model
      serializer skips [Serialize(false)] and properties lacking a getter or a
      setter; the settings manager skips only [IgnoreSetting]. */
  predicate Included(policy: Policy, p: Property) {
    match policy
    case ModelSerializerPolicy => p.serialize != Some(false) && p.canWrite && p.canRead
    case SettingsManagerPolicy => !p.ignoreSetting
  }

  function Names(props: seq<Property>): set<string> {
    set p | p in props :: p.name
  }

  function IncludedNames(policy: Policy, props: seq<Property>): set<string> {
    set p | p in props && Included(policy, p) :: p.name
  }

  /** `a` and `b` agree on key `k`: both lack it or both hold the same value. */
  predicate SameAt(a: Instance, b: Instance, k: string) {
    (k in a <==> k in b) && (k in a ==> a[k] == b[k])
  }

  /** A decoded value whose runtime type the declared type does not accept goes
      through the type converter; null and accepted values are kept as they are. */
  function Coerce(rt: Runtime, p: Property, v: Value): (r: Result<Value>)
    ensures FitsType(rt, p.propertyType, v) ==> r == Success(v)
    ensures r.Success? && !FitsType(rt, p.propertyType, v) ==> rt.convert(p.propertyType, v) == Some(r.value)
    ensures r.Failure? ==> r.error == ConversionError(p.name, p.propertyType) && rt.convert(p.propertyType, v).None?
  {
    if !FitsType(rt, p.propertyType, v) then
      match rt.convert(p.propertyType, v)
      case None => Failure(ConversionError(p.name, p.propertyType))
      case Some(c) => Success(c)
    else
      Success(v)
  }

  /** The value a decode assigns to an included property: the decoded (and
      possibly converted) stored text when the map has the key, else the
      [DefaultValue] when there is one; None means the property is not set. */
  function Assignment(rt: Runtime, p: Property, hash: map<string, string>): Result<Option<Value>> {
    if p.name in hash then
      match rt.decode(hash[p.name])
      case None => Failure(JsonError(p.name))
      case Some(v) =>
        var c :- Coerce(rt, p, v);
        Success(Some(c))
    else
      Success(p.defaultValue)
  }

  /** What decoding does with one property: nothing when it is excluded, else its
      assignment, which a property without a setter cannot take. */
  function Decide(policy: Policy, rt: Runtime, p: Property, hash: map<string, string>): Result<Option<Value>> {
    if !Included(policy, p) then Success(None)
    else
      var a :- Assignment(rt, p, hash);
      if a.Some? && !p.canWrite then Failure(NotWritable(p.name)) else Success(a)
  }

  /** The outcome of one property's decision: nothing for an excluded property;
      otherwise a failure only from undecodable text, a failed conversion, or a
      value for a property without a setter; and on success the decoded value
      (converted when its type does not fit) or, for an absent key, the
      [DefaultValue]. */
  lemma DecideOutcome(policy: Policy, rt: Runtime, p: Property, hash: map<string, string>)
    ensures var d := Decide(policy, rt, p, hash);
      && (!Included(policy, p) ==> d == Success(None))
      && (Included(policy, p) && p.name in hash && rt.decode(hash[p.name]).None? ==> d == Failure(JsonError(p.name)))
      && (d.Failure? ==> Included(policy, p))
      && (d.Failure? ==>
            || (p.name in hash && rt.decode(hash[p.name]).None? && d.error == JsonError(p.name))
            || (&& p.name in hash && rt.decode(hash[p.name]).Some?
                && !FitsType(rt, p.propertyType, rt.decode(hash[p.name]).value)
                && rt.convert(p.propertyType, rt.decode(hash[p.name]).value).None?
                && d.error == ConversionError(p.name, p.propertyType))
            || (!p.canWrite && (p.name in hash || p.defaultValue.Some?) && d.error == NotWritable(p.name)))
      && (d.Success? && d.value.Some? ==> Included(policy, p) && p.canWrite)
      && (Included(policy, p) && p.name !in hash && p.defaultValue.None? ==> d == Success(None))
      && (Included(policy, p) && p.name !in hash && d.Success? ==> d.value == p.defaultValue)
      && (Included(policy, p) && p.name in hash && d.Success? ==>
            && d.value.Some?
            && rt.decode(hash[p.name]).Some?
            && (FitsType(rt, p.propertyType, rt.decode(hash[p.name]).value) ==> d.value.value == rt.decode(hash[p.name]).value)
            && (!FitsType(rt, p.propertyType, rt.decode(hash[p.name]).value) ==>
                  rt.convert(p.propertyType, rt.decode(hash[p.name]).value) == d.value))
  {
  }

  /** Reads every included property, in order, into a name -> encoded value map.
      Reading a property without a getter raises. */
  function EncodeAll(policy: Policy, rt: Runtime, props: seq<Property>, inst: Instance): (r: Result<map<string, string>>)
    requires UniqueNames(props)
    requires Conforms(props, inst)
    ensures r.Success? <==> forall p <- props :: Included(policy, p) ==> p.canRead
    ensures r.Success? ==> r.value.Keys == IncludedNames(policy, props)
    ensures r.Success? ==> forall p <- props :: Included(policy, p) ==> r.value[p.name] == rt.encode(inst[p.name])
    ensures r.Failure? ==> exists p <- props :: Included(policy, p) && !p.canRead && r.error == NotReadable(p.name)
    decreases |props|
  {
    if |props| == 0 then Success(map[])
    else
      var p := props[0];
      assert forall q <- props[1..] :: q in props;
      if !Included(policy, p) then
        EncodeAll(policy, rt, props[1..], inst)
      else if !p.canRead then
        Failure(NotReadable(p.name))
      else
        var rest :- EncodeAll(policy, rt, props[1..], inst);
        Success(rest[p.name := rt.encode(inst[p.name])])
  }

  /** The object after a decode, and the exception that stopped it, if any. */
  datatype Applied = Applied(instance: Instance, raised: Option<Error>)

  function Assign(inst: Instance, name: string, a: Option<Value>): Instance {
    match a
    case None => inst
    case Some(v) => inst[name := v]
  }

  /** Decoding left property `name` as decision `d` says: holding the assigned
      value, or unchanged when nothing was assigned. */
  predicate Settled(before: Instance, after: Instance, name: string, d: Result<Option<Value>>) {
    match d
    case Success(Some(v)) => name in after && after[name] == v
    case _ => SameAt(before, after, name)
  }

  /** Sets the properties one after the other, in order, on `inst`; the first
      exception stops the loop and leaves the properties set so far as they are. */
  function ApplyAll(policy: Policy, rt: Runtime, props: seq<Property>, hash: map<string, string>, inst: Instance): (r: Applied)
    decreases |props|
  {
    if |props| == 0 then Applied(inst, None)
    else
      match Decide(policy, rt, props[0], hash)
      case Failure(e) => Applied(inst, Some(e))
      case Success(a) => ApplyAll(policy, rt, props[1..], hash, Assign(inst, props[0].name, a))
  }

  /** A decode run raises exactly when some property's decision fails, and
      then with that failure. */
  lemma {:induction false} ApplyAllRaises(policy: Policy, rt: Runtime, props: seq<Property>, hash: map<string, string>, inst: Instance)
    ensures var r := ApplyAll(policy, rt, props, hash, inst);
      && (r.raised.None? <==> forall p <- props :: Decide(policy, rt, p, hash).Success?)
      && (r.raised.Some? ==> exists p <- props :: Decide(policy, rt, p, hash) == Failure(r.raised.value))
    decreases |props|
  {
    if |props| > 0 {
      var p0 := props[0];
      var tail := props[1..];
      assert forall q <- tail :: q in props;
      assert forall q <- props :: q == p0 || q in tail by {
        assert props == [p0] + tail;
      }
      match Decide(policy, rt, p0, hash)
      case Failure(e) =>
      case Success(a) =>
        ApplyAllRaises(policy, rt, tail, hash, Assign(inst, p0.name, a));
    }
  }

  /** A decode run leaves every name that is not a property alone. */
  lemma {:induction false} ApplyAllFrame(policy: Policy, rt: Runtime, props: seq<Property>, hash: map<string, string>, inst: Instance, k: string)
    requires k !in Names(props)
    ensures SameAt(inst, ApplyAll(policy, rt, props, hash, inst).instance, k)
    decreases |props|
  {
    if |props| > 0 {
      var p0 := props[0];
      assert p0 in props;
      assert Names(props[1..]) <= Names(props) by {
        assert forall q <- props[1..] :: q in props;
      }
      match Decide(policy, rt, p0, hash)
      case Failure(e) =>
      case Success(a) =>
        ApplyAllFrame(policy, rt, props[1..], hash, Assign(inst, p0.name, a), k);
    }
  }

  /** Every property ends as its decision says or, once an exception has been
      raised, possibly unchanged. */
  lemma ApplyAllSettles(policy: Policy, rt: Runtime, props: seq<Property>, hash: map<string, string>, inst: Instance)
    requires UniqueNames(props)
    ensures var r := ApplyAll(policy, rt, props, hash, inst);
      forall p <- props ::
        || Settled(inst, r.instance, p.name, Decide(policy, rt, p, hash))
        || (r.raised.Some? && SameAt(inst, r.instance, p.name))
  {
    var r := ApplyAll(policy, rt, props, hash, inst);
    ApplyAllStops(policy, rt, props, hash, inst);
    var f := |props|;
    if r.raised.Some? {
      f :| 0 <= f < |props| && Decide(policy, rt, props[f], hash) == Failure(r.raised.value)
           && StoppedAt(policy, rt, props, hash, inst, r.instance, f);
    }
    assert StoppedAt(policy, rt, props, hash, inst, r.instance, f);
    forall p <- props
      ensures || Settled(inst, r.instance, p.name, Decide(policy, rt, p, hash))
              || (r.raised.Some? && SameAt(inst, r.instance, p.name))
    {
      var i :| 0 <= i < |props| && props[i] == p;
      if i >= f {
        assert SameAt(inst, r.instance, props[i].name);
      }
    }
  }

  /** A decode run leaves alone every property the policy excludes and every
      property whose key is absent and which has no [DefaultValue]. */
  lemma ApplyAllKeeps(policy: Policy, rt: Runtime, props: seq<Property>, hash: map<string, string>, inst: Instance)
    requires UniqueNames(props)
    ensures var r := ApplyAll(policy, rt, props, hash, inst);
      forall p <- props :: !Included(policy, p) || (p.name !in hash && p.defaultValue.None?) ==>
        SameAt(inst, r.instance, p.name)
  {
    var r := ApplyAll(policy, rt, props, hash, inst);
    ApplyAllSettles(policy, rt, props, hash, inst);
    forall p <- props | !Included(policy, p) || (p.name !in hash && p.defaultValue.None?)
      ensures SameAt(inst, r.instance, p.name)
    {
      assert Decide(policy, rt, p, hash) == Success(None);
    }
  }

  /** The run stopped before property `f`: every property before it was
      decided without failure and is settled as decided, and `f` and every
      property after it are as they were before the run. */
  predicate StoppedAt(policy: Policy, rt: Runtime, props: seq<Property>, hash: map<string, string>,
                      before: Instance, after: Instance, f: int) {
    && 0 <= f <= |props|
    && (forall i :: 0 <= i < f ==>
          Decide(policy, rt, props[i], hash).Success? &&
          Settled(before, after, props[i].name, Decide(policy, rt, props[i], hash)))
    && (forall i :: f <= i < |props| ==> SameAt(before, after, props[i].name))
  }

  /** The run stops at the first failing property: a run without exception
      settles every property, and a run that raises stopped at a property whose
      decision is that exception, with everything before it set and everything
      from it on untouched. */
  lemma {:induction false} ApplyAllStops(policy: Policy, rt: Runtime, props: seq<Property>, hash: map<string, string>, inst: Instance)
    requires UniqueNames(props)
    ensures var r := ApplyAll(policy, rt, props, hash, inst);
      && (r.raised.None? ==> StoppedAt(policy, rt, props, hash, inst, r.instance, |props|))
      && (r.raised.Some? ==>
            exists f :: 0 <= f < |props| && Decide(policy, rt, props[f], hash) == Failure(r.raised.value)
                        && StoppedAt(policy, rt, props, hash, inst, r.instance, f))
    decreases |props|
  {
    var r := ApplyAll(policy, rt, props, hash, inst);
    if |props| > 0 {
      var p0 := props[0];
      match Decide(policy, rt, p0, hash)
      case Failure(e) =>
        assert r == Applied(inst, Some(e));
        assert StoppedAt(policy, rt, props, hash, inst, r.instance, 0);
      case Success(a) =>
        var inst1 := Assign(inst, p0.name, a);
        UniqueTail(props);
        var tail := props[1..];
        ApplyAllStops(policy, rt, tail, hash, inst1);
        assert r == ApplyAll(policy, rt, tail, hash, inst1);
        ApplyAllFrame(policy, rt, tail, hash, inst1, p0.name);
        if r.raised.None? {
          StoppedExtend(policy, rt, props, hash, inst, inst1, r.instance, |tail|);
        } else {
          var f :| 0 <= f < |tail| && Decide(policy, rt, tail[f], hash) == Failure(r.raised.value)
                   && StoppedAt(policy, rt, tail, hash, inst1, r.instance, f);
          StoppedExtend(policy, rt, props, hash, inst, inst1, r.instance, f);
          assert props[f + 1] == tail[f];
        }
    }
  }

  /** A successful first decision followed by a run of the rest that stopped
      at `f` is a run of the whole that stopped at `f + 1`. */
  lemma StoppedExtend(policy: Policy, rt: Runtime, props: seq<Property>, hash: map<string, string>,
                      inst: Instance, inst1: Instance, after: Instance, f: int)
    requires |props| > 0 && UniqueNames(props)
    requires Decide(policy, rt, props[0], hash).Success?
    requires inst1 == Assign(inst, props[0].name, Decide(policy, rt, props[0], hash).value)
    requires SameAt(inst1, after, props[0].name)
    requires StoppedAt(policy, rt, props[1..], hash, inst1, after, f)
    ensures StoppedAt(policy, rt, props, hash, inst, after, f + 1)
  {
    var tail := props[1..];
    forall i | 0 < i < |props|
      ensures props[i] == tail[i - 1] && SameAt(inst, inst1, props[i].name)
    {
      assert props[0].name != props[i].name;
    }
  }

  /** What a decode run does, property by property: it raises exactly when some
      property's decision fails, and then with that failure; names that are not
      properties are untouched; every property ends as its decision says, or,
      once an exception has been raised, possibly unchanged; and the run stops
      at the first failing property. */
  lemma ApplyAllSpec(policy: Policy, rt: Runtime, props: seq<Property>, hash: map<string, string>, inst: Instance)
    requires UniqueNames(props)
    ensures var r := ApplyAll(policy, rt, props, hash, inst);
      && (r.raised.None? <==> forall p <- props :: Decide(policy, rt, p, hash).Success?)
      && (r.raised.Some? ==> exists p <- props :: Decide(policy, rt, p, hash) == Failure(r.raised.value))
      && (forall k :: k !in Names(props) ==> SameAt(inst, r.instance, k))
      && (forall p <- props ::
            || Settled(inst, r.instance, p.name, Decide(policy, rt, p, hash))
            || (r.raised.Some? && SameAt(inst, r.instance, p.name)))
      && (r.raised.None? ==> StoppedAt(policy, rt, props, hash, inst, r.instance, |props|))
      && (r.raised.Some? ==>
            exists f :: 0 <= f < |props| && Decide(policy, rt, props[f], hash) == Failure(r.raised.value)
                        && StoppedAt(policy, rt, props, hash, inst, r.instance, f))
  {
    ApplyAllStops(policy, rt, props, hash, inst);
    ApplyAllRaises(policy, rt, props, hash, inst);
    ApplyAllSettles(policy, rt, props, hash, inst);
    forall k | k !in Names(props)
      ensures SameAt(inst, ApplyAll(policy, rt, props, hash, inst).instance, k)
    {
      ApplyAllFrame(policy, rt, props, hash, inst, k);
    }
  }

  /** The tail of a uniquely named sequence is uniquely named and does not
      repeat the head's name. */
  lemma UniqueTail(props: seq<Property>)
    requires |props| > 0 && UniqueNames(props)
    ensures UniqueNames(props[1..])
    ensures props[0].name !in Names(props[1..])
    ensures forall q <- props[1..] :: q in props && q.name != props[0].name
    ensures Names(props) == {props[0].name} + Names(props[1..])
  {
    forall q | q in props[1..]
      ensures q.name != props[0].name
    {
      var j :| 0 <= j < |props[1..]| && props[1..][j] == q;
      assert props[j + 1] == q;
    }
    assert props == [props[0]] + props[1..];
  }

  /** Decoding depends on the properties and the map only through each
      property's name and decision: two runs whose decisions agree position by
      position end in the same place. */
  lemma {:induction false} ApplyAllCongruent(
    policy: Policy, rt: Runtime,
    props1: seq<Property>, hash1: map<string, string>,
    props2: seq<Property>, hash2: map<string, string>,
    inst: Instance)
    requires UniqueNames(props1) && UniqueNames(props2)
    requires |props1| == |props2|
    requires forall i :: 0 <= i < |props1| ==>
               && props1[i].name == props2[i].name
               && Decide(policy, rt, props1[i], hash1) == Decide(policy, rt, props2[i], hash2)
    ensures ApplyAll(policy, rt, props1, hash1, inst) == ApplyAll(policy, rt, props2, hash2, inst)
    decreases |props1|
  {
    if |props1| > 0 {
      assert props1[0].name == props2[0].name;
      assert Decide(policy, rt, props1[0], hash1) == Decide(policy, rt, props2[0], hash2);
      match Decide(policy, rt, props1[0], hash1)
      case Failure(e) =>
      case Success(a) =>
        UniqueTail(props1);
        UniqueTail(props2);
        var inst1 := Assign(inst, props1[0].name, a);
        ApplyAllCongruent(policy, rt, props1[1..], hash1, props2[1..], hash2, inst1);
    }
  }

  /** Decoding only ever assigns property names, so an object that has every
      property keeps having every property, whether or not decoding raised. */
  lemma ApplyAllConforms(policy: Policy, rt: Runtime, props: seq<Property>, hash: map<string, string>, inst: Instance)
    requires UniqueNames(props)
    requires Conforms(props, inst)
    ensures Conforms(props, ApplyAll(policy, rt, props, hash, inst).instance)
  {
    var r := ApplyAll(policy, rt, props, hash, inst);
    ApplyAllSpec(policy, rt, props, hash, inst);
    forall p <- props
      ensures p.name in r.instance
    {
      assert Settled(inst, r.instance, p.name, Decide(policy, rt, p, hash)) || SameAt(inst, r.instance, p.name);
    }
  }
}

=== FILE: settings_ini.dfy ===
/**
 The INI text layer of the settings manager: a file is a sequence of lines;
 a line of optional whitespace then `;` is a comment; any other line whose
 first `=` is not at index 0 maps the text before that `=` to the text after
 it, with no trimming; every other line is ignored, and a later line for the
 same key wins. Writing produces one `key=value` line per map entry.
 */
module Ini {
  import opened Values
  import opened Chars
  import opened TextLines

  /** Matcher for the comment pattern `^\s*;`. */
  function IsComment(line: string): bool
    decreases |line|
  {
    if |line| == 0 then false
    else if line[0] == ';' then true
    else if IsSpace(line[0]) then IsComment(line[1..])
    else false
  }

  /** What the comment pattern means: a `;` preceded only by whitespace. */
  ghost predicate CommentPattern(line: string) {
    exists i :: 0 <= i < |line| && line[i] == ';' && forall j :: 0 <= j < i ==> IsSpace(line[j])
  }

  /** The matcher accepts exactly the lines the comment pattern describes. */
  lemma {:induction false} IsCommentMatchesPattern(line: string)
    ensures IsComment(line) <==> CommentPattern(line)
    decreases |line|
  {
    if |line| > 0 && line[0] != ';' {
      IsCommentMatchesPattern(line[1..]);
      if CommentPattern(line) {
        var i :| 0 <= i < |line| && line[i] == ';' && forall j :: 0 <= j < i ==> IsSpace(line[j]);
        assert i > 0 && IsSpace(line[0]);
        assert line[1..][i - 1] == ';';
        assert forall j :: 0 <= j < i - 1 ==> IsSpace(line[1..][j]) by {
          forall j | 0 <= j < i - 1 ensures IsSpace(line[1..][j]) {
            assert line[1..][j] == line[j + 1];
          }
        }
      }
      if IsComment(line) {
        var i :| 0 <= i < |line[1..]| && line[1..][i] == ';' && forall j :: 0 <= j < i ==> IsSpace(line[1..][j]);
        assert line[i + 1] == ';';
        forall j | 0 <= j < i + 1 ensures IsSpace(line[j]) {
          if j > 0 { assert line[j] == line[1..][j - 1]; }
        }
      }
    } else if |line| > 0 {
      assert line[0] == ';';
    }
  }

  /** Index of the first occurrence of `c` in `s`, or -1 when there is none. */
  function IndexOf(s: string, c: char): (i: int)
    ensures -1 <= i < |s|
    ensures i == -1 <==> c !in s
    ensures 0 <= i ==> s[i] == c && c !in s[..i]
    decreases |s|
  {
    if |s| == 0 then -1
    else if s[0] == c then 0
    else
      var j := IndexOf(s[1..], c);
      assert s == [s[0]] + s[1..];
      if j == -1 then -1
      else
        assert s[..j + 1] == [s[0]] + s[1..][..j];
        j + 1
  }

  /** The key and value a line contributes, if any. */
  function ParseLine(line: string): (r: Option<(string, string)>)
    ensures r.Some? <==> !IsComment(line) && IndexOf(line, '=') > 0
    ensures r.Some? ==> |r.value.0| > 0 && '=' !in r.value.0 && line == r.value.0 + "=" + r.value.1
  {
    if IsComment(line) then None
    else
      var i := IndexOf(line, '=');
      if i > 0 then Some((line[..i], line[i + 1..])) else None
  }

  /** One pass of the reading loop: a data line overwrites its key. */
  function Step(hash: map<string, string>, line: string): map<string, string> {
    match ParseLine(line)
    case None => hash
    case Some(kv) => hash[kv.0 := kv.1]
  }

  function ParseFrom(hash: map<string, string>, lines: seq<string>): map<string, string>
    decreases |lines|
  {
    if |lines| == 0 then hash else ParseFrom(Step(hash, lines[0]), lines[1..])
  }

  /** The line defines key `k`. */
  predicate Defines(line: string, k: string) {
    ParseLine(line).Some? && ParseLine(line).value.0 == k
  }

  /** Line `i` defines a key that no later line defines again. */
  predicate LastDefinition(lines: seq<string>, i: int) {
    && 0 <= i < |lines|
    && ParseLine(lines[i]).Some?
    && forall j :: i < j < |lines| ==> !Defines(lines[j], ParseLine(lines[i]).value.0)
  }

  /** Reads the lines of an INI file into a key -> value map: the keys are
      those some line defines, each with the value of its last defining line. */
  function ParseIni(lines: seq<string>): (r: map<string, string>)
    ensures forall k :: k in r <==> exists i :: 0 <= i < |lines| && Defines(lines[i], k)
    ensures forall i | LastDefinition(lines, i) ::
              ParseLine(lines[i]).value.0 in r && r[ParseLine(lines[i]).value.0] == ParseLine(lines[i]).value.1
  {
    var r := ParseFrom(map[], lines);
    assert forall k :: k in r <==> exists i :: 0 <= i < |lines| && Defines(lines[i], k) by {
      forall k ensures k in r <==> exists i :: 0 <= i < |lines| && Defines(lines[i], k) {
        ParseFromSpec(map[], lines, k);
      }
    }
    assert forall i | LastDefinition(lines, i) ::
             ParseLine(lines[i]).value.0 in r && r[ParseLine(lines[i]).value.0] == ParseLine(lines[i]).value.1 by {
      forall i | LastDefinition(lines, i)
        ensures ParseLine(lines[i]).value.0 in r && r[ParseLine(lines[i]).value.0] == ParseLine(lines[i]).value.1
      {
        ParseFromSpec(map[], lines, ParseLine(lines[i]).value.0);
      }
    }
    r
  }

  /** Last line wins: a key is in the result exactly when it was already in the
      map or some line defines it, and its value comes from the last line that
      defines it, or from the map when no line does. */
  lemma ParseFromSpec(hash: map<string, string>, lines: seq<string>, k: string)
    ensures var r := ParseFrom(hash, lines);
      && (k in r <==> k in hash || exists i :: 0 <= i < |lines| && Defines(lines[i], k))
      && (forall i ::
            (0 <= i < |lines| && Defines(lines[i], k) && (forall j :: i < j < |lines| ==> !Defines(lines[j], k)))
            ==> k in r && r[k] == ParseLine(lines[i]).value.1)
      && ((forall i :: 0 <= i < |lines| ==> !Defines(lines[i], k)) && k in hash ==> k in r && r[k] == hash[k])
  {
    ParseFromKeys(hash, lines, k);
    forall i | 0 <= i < |lines| && Defines(lines[i], k) && (forall j :: i < j < |lines| ==> !Defines(lines[j], k))
      ensures k in ParseFrom(hash, lines) && ParseFrom(hash, lines)[k] == ParseLine(lines[i]).value.1
    {
      ParseFromLastWins(hash, lines, k, i);
    }
    if (forall i :: 0 <= i < |lines| ==> !Defines(lines[i], k)) && k in hash {
      ParseFromUntouched(hash, lines, k);
    }
  }

  /** The last line that defines a key gives its value. */
  lemma {:induction false} ParseFromLastWins(hash: map<string, string>, lines: seq<string>, k: string, i: int)
    requires 0 <= i < |lines| && Defines(lines[i], k)
    requires forall j :: i < j < |lines| ==> !Defines(lines[j], k)
    ensures k in ParseFrom(hash, lines) && ParseFrom(hash, lines)[k] == ParseLine(lines[i]).value.1
    decreases |lines|
  {
    var h1 := Step(hash, lines[0]);
    var tail := lines[1..];
    assert ParseFrom(hash, lines) == ParseFrom(h1, tail);
    forall j | i - 1 < j < |tail| ensures !Defines(tail[j], k) {
      assert tail[j] == lines[j + 1];
    }
    if i > 0 {
      assert tail[i - 1] == lines[i];
      ParseFromLastWins(h1, tail, k, i - 1);
    } else {
      ParseFromUntouched(h1, tail, k);
    }
  }

  /** A key no line defines keeps the value it had before the lines were read. */
  lemma {:induction false} ParseFromUntouched(hash: map<string, string>, lines: seq<string>, k: string)
    requires forall i :: 0 <= i < |lines| ==> !Defines(lines[i], k)
    requires k in hash
    ensures k in ParseFrom(hash, lines) && ParseFrom(hash, lines)[k] == hash[k]
    decreases |lines|
  {
    if |lines| > 0 {
      var h1 := Step(hash, lines[0]);
      var tail := lines[1..];
      assert !Defines(lines[0], k);
      forall j | 0 <= j < |tail| ensures !Defines(tail[j], k) {
        assert tail[j] == lines[j + 1];
      }
      ParseFromUntouched(h1, tail, k);
    }
  }

  /** A key is in the parsed map exactly when it was in the map already or
      some line defines it. */
  lemma {:induction false} ParseFromKeys(hash: map<string, string>, lines: seq<string>, k: string)
    ensures k in ParseFrom(hash, lines) <==> k in hash || exists i :: 0 <= i < |lines| && Defines(lines[i], k)
    decreases |lines|
  {
    if |lines| > 0 {
      var h1 := Step(hash, lines[0]);
      var tail := lines[1..];
      ParseFromKeys(h1, tail, k);
      assert k in h1 <==> k in hash || Defines(lines[0], k);
      if exists i :: 0 <= i < |tail| && Defines(tail[i], k) {
        var i :| 0 <= i < |tail| && Defines(tail[i], k);
        assert Defines(lines[i + 1], k);
      }
      if exists i :: 0 <= i < |lines| && Defines(lines[i], k) {
        var i :| 0 <= i < |lines| && Defines(lines[i], k);
        if i > 0 { assert Defines(tail[i - 1], k); }
      }
    }
  }

  lemma {:induction false} ParseFromAppend(hash: map<string, string>, a: seq<string>, b: seq<string>)
    ensures ParseFrom(hash, a + b) == ParseFrom(ParseFrom(hash, a), b)
    decreases |a|
  {
    if |a| > 0 {
      assert (a + b)[1..] == a[1..] + b;
      ParseFromAppend(Step(hash, a[0]), a[1..], b);
    } else {
      assert a + b == b;
    }
  }

  /** A line that contributes nothing (a comment, a line without `=`, a line
      starting with `=`) can be dropped without changing the result. */
  lemma IgnoredLineDroppable(a: seq<string>, line: string, b: seq<string>)
    requires ParseLine(line).None?
    ensures ParseIni(a + [line] + b) == ParseIni(a + b)
  {
    ParseFromAppend(map[], a, [line] + b);
    ParseFromAppend(map[], a, b);
    assert a + [line] + b == a + ([line] + b);
    assert ([line] + b)[1..] == b;
  }

  /** The text of one entry. */
  function IniLine(key: string, value: string): string {
    key + "=" + value
  }

  /** Writes one `key=value` line per key of `order`, in that order. */
  function RenderIni(hash: map<string, string>, order: seq<string>): (lines: seq<string>)
    requires forall k <- order :: k in hash
    ensures |lines| == |order|
    ensures forall i :: 0 <= i < |order| ==> lines[i] == IniLine(order[i], hash[order[i]])
    decreases |order|
  {
    if |order| == 0 then []
    else [IniLine(order[0], hash[order[0]])] + RenderIni(hash, order[1..])
  }

  /** A key the writer can emit and the reader reads back as itself. */
  predicate ValidKey(k: string) {
    |k| > 0 && '=' !in k && !IsComment(k) && SingleLine(k)
  }

  /** The line written for a valid key and a single-line value is one line. */
  lemma IniLineSingle(k: string, v: string)
    requires ValidKey(k) && SingleLine(v)
    ensures SingleLine(IniLine(k, v))
  {
    assert forall c <- IniLine(k, v) :: c in k || c == '=' || c in v;
  }

  /** Whether `k=v` is a comment is decided within the key when the key has no `=`. */
  lemma {:induction false} CommentDecidedByKey(k: string, v: string)
    requires '=' !in k
    ensures IsComment(IniLine(k, v)) == IsComment(k)
    decreases |k|
  {
    var line := IniLine(k, v);
    if |k| > 0 {
      assert line[0] == k[0];
      assert line[1..] == IniLine(k[1..], v);
      CommentDecidedByKey(k[1..], v);
    } else {
      assert line[0] == '=';
    }
  }

  /** A written line reads back as its own key and value. */
  lemma LineRoundTrip(k: string, v: string)
    requires ValidKey(k)
    ensures ParseLine(IniLine(k, v)) == Some((k, v))
  {
    var line := IniLine(k, v);
    CommentDecidedByKey(k, v);
    var i := IndexOf(line, '=');
    assert line[|k|] == '=';
    assert line[..|k|] == k;
    assert i == |k|;
    assert line[i + 1..] == v;
  }

  /** Line round trip: parsing the written lines gives back the entries written,
      provided every key is a valid key. Values may hold anything here, `=`
      included; that each entry stays one line once written to text is the
      concern of the text layer. */
  lemma {:induction false} RenderParseFrom(acc: map<string, string>, hash: map<string, string>, order: seq<string>)
    requires forall k <- order :: k in hash && ValidKey(k)
    ensures ParseFrom(acc, RenderIni(hash, order)) == acc + map k | k in order :: hash[k]
    decreases |order|
  {
    if |order| > 0 {
      var k0 := order[0];
      var lines := RenderIni(hash, order);
      LineRoundTrip(k0, hash[k0]);
      assert lines[0] == IniLine(k0, hash[k0]);
      assert lines[1..] == RenderIni(hash, order[1..]);
      var acc1 := acc[k0 := hash[k0]];
      assert Step(acc, lines[0]) == acc1;
      assert ParseFrom(acc, lines) == ParseFrom(acc1, RenderIni(hash, order[1..]));
      assert forall k <- order[1..] :: k in order;
      RenderParseFrom(acc1, hash, order[1..]);
      MapOfOrderCons(acc, hash, order);
    } else {
      assert order == [];
    }
  }

  /** Entering the first key, then the rest, enters all of them. */
  lemma MapOfOrderCons(acc: map<string, string>, hash: map<string, string>, order: seq<string>)
    requires |order| > 0
    requires forall k <- order :: k in hash
    ensures acc[order[0] := hash[order[0]]] + (map k | k in order[1..] :: hash[k])
         == acc + (map k | k in order :: hash[k])
  {
    var k0 := order[0];
    var lhs := acc[k0 := hash[k0]] + (map k | k in order[1..] :: hash[k]);
    var rhs := acc + (map k | k in order :: hash[k]);
    assert order == [k0] + order[1..];
    assert lhs.Keys == rhs.Keys;
    forall k | k in lhs ensures lhs[k] == rhs[k] {
      if k in order[1..] {
        assert k in order;
      } else if k == k0 {
        assert k in order;
      } else {
        assert k !in order;
      }
    }
  }

  /** Writing every entry of a map and reading the lines back gives the map. */
  lemma RenderParseRoundTrip(hash: map<string, string>, order: seq<string>)
    requires forall k <- order :: k in hash && ValidKey(k)
    requires forall k <- hash.Keys :: k in order
    ensures ParseIni(RenderIni(hash, order)) == hash
  {
    RenderParseFrom(map[], hash, order);
    assert map[] + (map k | k in order :: hash[k]) == hash;
  }

  /** A comment line is skipped even when it holds `=`. */
  lemma CommentWithEqualsExample()
    ensures ParseLine("  ;x=1").None?
  {
    assert "  ;x=1"[1..] == " ;x=1" && " ;x=1"[1..] == ";x=1";
  }

  /** A line without `=`, or with `=` at index 0, contributes nothing. */
  lemma MalformedLineExamples()
    ensures ParseLine("=1").None?
    ensures ParseLine("ab").None?
  {
    assert "=1"[0] == '=';
    assert '=' !in "ab";
  }

  /** Keys and values are not trimmed, and the value keeps further `=`. */
  lemma UntrimmedExamples()
    ensures ParseLine(" a = b ") == Some((" a ", " b "))
    ensures ParseLine("a=b=c") == Some(("a", "b=c"))
  {
    assert IniLine(" a ", " b ") == " a = b ";
    assert " a "[1..] == "a ";
    assert !IsComment(" a ");
    LineRoundTrip(" a ", " b ");
    assert IniLine("a", "b=c") == "a=b=c";
    LineRoundTrip("a", "b=c");
  }

  /** Of two lines for the same key, the later one wins. */
  lemma DuplicateKeyExample()
    ensures ParseIni(["A=1", "A=2"]) == map["A" := "2"]
  {
    assert IniLine("A", "1") == "A=1" && IniLine("A", "2") == "A=2";
    LineRoundTrip("A", "1");
    LineRoundTrip("A", "2");
    var lines := ["A=1", "A=2"];
    assert lines[1..] == ["A=2"];
    assert ParseIni(lines) == ParseFrom(map["A" := "1"], ["A=2"]);
    assert ["A=2"][1..] == [];
    assert ParseFrom(map["A" := "1"], ["A=2"]) == ParseFrom(map["A" := "2"], []);
  }

  /** Comment lines, with or without leading whitespace, are skipped. */
  lemma CommentExample()
    ensures ParseIni(["; comment", "A=1", "  ;also comment", "B=2"]) == ParseIni(["A=1", "B=2"])
  {
    assert IsComment("; comment");
    assert IsComment("  ;also comment");
    CommentsDropped("; comment", "A=1", "  ;also comment", "B=2");
  }

  /** Two comment lines between data lines leave the parsed map unchanged. */
  lemma CommentsDropped(c1: string, a: string, c2: string, b: string)
    requires IsComment(c1) && IsComment(c2)
    ensures ParseIni([c1, a, c2, b]) == ParseIni([a, b])
  {
    var h := Step(map[], a);
    assert Step(map[], c1) == map[] && Step(h, c2) == h;
    assert [c1, a, c2, b][1..] == [a, c2, b];
    assert [a, c2, b][1..] == [c2, b];
    assert [c2, b][1..] == [b] && [a, b][1..] == [b];
    assert ParseFrom(map[], [c1, a, c2, b]) == ParseFrom(map[], [a, c2, b]);
    assert ParseFrom(map[], [a, c2, b]) == ParseFrom(h, [c2, b]);
    assert ParseFrom(h, [c2, b]) == ParseFrom(h, [b]);
    assert ParseFrom(map[], [a, b]) == ParseFrom(h, [b]);
  }
}

=== FILE: settings_manager.dfy ===
/**
 The settings manager: holds one settings object, exposes it as a
 name -> JSON text map, and updates it in place from such a map or from the
 lines of an INI file. Unlike the model serializer, it skips only properties
 marked [IgnoreSetting]; it does not filter on getters and setters, so the
 reflective get or set on a property lacking one raises.
 */
module SettingsManager {
  import opened Values
  import opened Reflection
  import opened Ini
  import opened TextLines

  /** The manager: the settings type and the object it currently holds. */
  datatype Manager = Manager(settingsType: ModelType, settings: Instance)

  /** The settings type has a parameterless constructor and uniquely named
      properties, and the held object has every property of the type. */
  predicate Valid(m: Manager) {
    && WellFormed(m.settingsType)
    && m.settingsType.construct.Some?
    && Conforms(m.settingsType.properties, m.settings)
  }

  /** A new manager holds what the parameterless constructor builds. */
  function NewManager(t: ModelType): (m: Manager)
    requires WellFormed(t) && t.construct.Some?
    ensures Valid(m)
    ensures m.settingsType == t && m.settings == t.construct.value
  {
    Manager(t, t.construct.value)
  }

  /** Encodes every property not marked [IgnoreSetting]; raises on the first
      such property that has no getter. */
  function SerializeToHash(rt: Runtime, m: Manager): (r: Result<map<string, string>>)
    requires Valid(m)
    ensures r.Success? <==> forall p <- m.settingsType.properties :: Included(SettingsManagerPolicy, p) ==> p.canRead
    ensures r.Success? ==> r.value.Keys == IncludedNames(SettingsManagerPolicy, m.settingsType.properties)
    ensures r.Success? ==>
              forall p <- m.settingsType.properties ::
                Included(SettingsManagerPolicy, p) ==> r.value[p.name] == rt.encode(m.settings[p.name])
    ensures r.Failure? ==>
              exists p <- m.settingsType.properties ::
                Included(SettingsManagerPolicy, p) && !p.canRead && r.error == NotReadable(p.name)
  {
    EncodeAll(SettingsManagerPolicy, rt, m.settingsType.properties, m.settings)
  }

  /** The manager after an update, and the exception that escaped it, if any. */
  datatype Updated = Updated(manager: Manager, raised: Option<Error>)

  /** Updates the held object in place, property by property: a present key
      sets the decoded (and possibly converted) value, an absent key sets the
      [DefaultValue] if there is one and otherwise keeps the previous value. An
      exception stops the update with the earlier properties already set. */
  function DeserializeFromHash(rt: Runtime, m: Manager, hash: map<string, string>): (u: Updated)
    requires Valid(m)
    ensures Valid(u.manager) && u.manager.settingsType == m.settingsType
    ensures u.raised.None? <==>
              forall p <- m.settingsType.properties :: Decide(SettingsManagerPolicy, rt, p, hash).Success?
    ensures u.raised.Some? ==>
              exists p <- m.settingsType.properties ::
                Included(SettingsManagerPolicy, p) && Decide(SettingsManagerPolicy, rt, p, hash) == Failure(u.raised.value)
    ensures forall p <- m.settingsType.properties :: !Included(SettingsManagerPolicy, p) ==>
              u.manager.settings[p.name] == m.settings[p.name]
    ensures forall p <- m.settingsType.properties :: p.name !in hash && p.defaultValue.None? ==>
              u.manager.settings[p.name] == m.settings[p.name]
    ensures forall k :: k !in Names(m.settingsType.properties) ==> SameAt(m.settings, u.manager.settings, k)
    ensures forall p <- m.settingsType.properties ::
              || Settled(m.settings, u.manager.settings, p.name, Decide(SettingsManagerPolicy, rt, p, hash))
              || (u.raised.Some? && u.manager.settings[p.name] == m.settings[p.name])
  {
    var props := m.settingsType.properties;
    var before := m.settings;
    var applied := ApplyAll(SettingsManagerPolicy, rt, props, hash, before);
    var after := applied.instance;
    assert Conforms(props, after) by {
      ApplyAllConforms(SettingsManagerPolicy, rt, props, hash, before);
    }
    assert && (applied.raised.None? <==> forall p <- props :: Decide(SettingsManagerPolicy, rt, p, hash).Success?)
           && (applied.raised.Some? ==>
                 exists p <- props :: Decide(SettingsManagerPolicy, rt, p, hash) == Failure(applied.raised.value)) by {
      ApplyAllRaises(SettingsManagerPolicy, rt, props, hash, before);
    }
    assert forall k :: k !in Names(props) ==> SameAt(before, after, k) by {
      forall k | k !in Names(props) ensures SameAt(before, after, k) {
        ApplyAllFrame(SettingsManagerPolicy, rt, props, hash, before, k);
      }
    }
    assert forall p <- props ::
             || Settled(before, after, p.name, Decide(SettingsManagerPolicy, rt, p, hash))
             || (applied.raised.Some? && SameAt(before, after, p.name)) by {
      ApplyAllSettles(SettingsManagerPolicy, rt, props, hash, before);
    }
    assert forall p <- props :: !Included(SettingsManagerPolicy, p) || (p.name !in hash && p.defaultValue.None?) ==>
             SameAt(before, after, p.name) by {
      ApplyAllKeeps(SettingsManagerPolicy, rt, props, hash, before);
    }
    Updated(m.(settings := after), applied.raised)
  }

  /** An update sets the properties in order and stops at the first failing
      one: without an exception every property is settled; with one, the
      properties before the first failure are settled and that one and every
      later one keep their previous value. */
  lemma UpdateStopsAtFirstFailure(rt: Runtime, m: Manager, hash: map<string, string>)
    requires Valid(m)
    ensures var props := m.settingsType.properties;
      var u := DeserializeFromHash(rt, m, hash);
      u.raised.None? ==> StoppedAt(SettingsManagerPolicy, rt, props, hash, m.settings, u.manager.settings, |props|)
    ensures var props := m.settingsType.properties;
      var u := DeserializeFromHash(rt, m, hash);
      u.raised.Some? ==>
        exists f :: 0 <= f < |props| && Decide(SettingsManagerPolicy, rt, props[f], hash) == Failure(u.raised.value)
                    && StoppedAt(SettingsManagerPolicy, rt, props, hash, m.settings, u.manager.settings, f)
  {
    ApplyAllStops(SettingsManagerPolicy, rt, m.settingsType.properties, hash, m.settings);
  }

  /** The names of the persisted properties in enumeration order, which is the
      order their entries are added to, and enumerated from, the map. */
  function PersistedOrder(props: seq<Property>): (order: seq<string>)
    ensures forall k <- order :: exists p <- props :: Included(SettingsManagerPolicy, p) && p.name == k
    ensures forall p <- props :: Included(SettingsManagerPolicy, p) ==> p.name in order
    ensures UniqueNames(props) ==> forall i, j :: 0 <= i < j < |order| ==> order[i] != order[j]
    decreases |props|
  {
    if |props| == 0 then []
    else
      var rest := PersistedOrder(props[1..]);
      assert forall q <- props[1..] :: q in props;
      if Included(SettingsManagerPolicy, props[0]) then
        assert UniqueNames(props) ==> props[0].name !in rest by {
          if UniqueNames(props) {
            UniqueTail(props);
          }
        }
        [props[0].name] + rest
      else rest
  }

  /** The order of a concatenation is the concatenation of the orders: names
      come in property order. */
  lemma {:induction false} PersistedOrderAppend(a: seq<Property>, b: seq<Property>)
    ensures PersistedOrder(a + b) == PersistedOrder(a) + PersistedOrder(b)
    decreases |a|
  {
    if |a| > 0 {
      assert (a + b)[0] == a[0];
      assert (a + b)[1..] == a[1..] + b;
      PersistedOrderAppend(a[1..], b);
    } else {
      assert a + b == b;
    }
  }

  /** One property contributes its name exactly when it is persisted. */
  lemma PersistedOrderOne(p: Property)
    ensures PersistedOrder([p]) == if Included(SettingsManagerPolicy, p) then [p.name] else []
  {
    assert [p][1..] == [];
  }

  /** Writes one `name=encoded value` line per persisted property, in property
      order, through a text writer. */
  function SerializeToIni(rt: Runtime, m: Manager): (r: Result<string>)
    requires Valid(m)
    ensures r.Success? <==> SerializeToHash(rt, m).Success?
    ensures r.Success? ==> r.value == WriteLines(SettingLines(rt, m))
  {
    var hash :- SerializeToHash(rt, m);
    var order := PersistedOrder(m.settingsType.properties);
    var lines := RenderIni(hash, order);
    assert lines == SettingLines(rt, m) by {
      RenderedSettingLines(rt, m);
    }
    Success(WriteLines(lines))
  }

  /** One `name=encoded value` line per persisted property, in property order. */
  function SettingLines(rt: Runtime, m: Manager): seq<string>
    requires Valid(m)
  {
    var order := PersistedOrder(m.settingsType.properties);
    assert forall k <- order :: k in m.settings;
    seq(|order|, i requires 0 <= i < |order| => IniLine(order[i], rt.encode(m.settings[order[i]])))
  }

  /** Rendering the encoded map in persisted order gives one line per
      persisted property holding its name and its encoded value. */
  lemma RenderedSettingLines(rt: Runtime, m: Manager)
    requires Valid(m) && SerializeToHash(rt, m).Success?
    ensures RenderIni(SerializeToHash(rt, m).value, PersistedOrder(m.settingsType.properties)) == SettingLines(rt, m)
  {
    var hash := SerializeToHash(rt, m).value;
    var order := PersistedOrder(m.settingsType.properties);
    var lines := RenderIni(hash, order);
    forall i | 0 <= i < |order|
      ensures lines[i] == IniLine(order[i], rt.encode(m.settings[order[i]]))
    {
      assert order[i] in order;
      var p :| p in m.settingsType.properties && Included(SettingsManagerPolicy, p) && p.name == order[i];
      assert p.name in hash && hash[p.name] == rt.encode(m.settings[p.name]);
    }
  }

  /** Reads the lines of an INI text into a map and updates from it. */
  function DeserializeFromIni(rt: Runtime, m: Manager, text: string): Updated
    requires Valid(m)
  {
    DeserializeFromHash(rt, m, ParseIni(ReadLines(text)))
  }

  /** Reading back what was written gives the map that was written, when every
      persisted property name is a valid INI key and every encoded value is a
      single line. */
  lemma IniTextRoundTrip(rt: Runtime, m: Manager)
    requires Valid(m)
    requires forall p <- m.settingsType.properties :: Included(SettingsManagerPolicy, p) ==>
               ValidKey(p.name) && SingleLine(rt.encode(m.settings[p.name]))
    requires SerializeToHash(rt, m).Success?
    ensures ParseIni(ReadLines(SerializeToIni(rt, m).value)) == SerializeToHash(rt, m).value
  {
    var hash := SerializeToHash(rt, m).value;
    var lines := RenderIni(hash, PersistedOrder(m.settingsType.properties));
    assert lines == SettingLines(rt, m) by {
      RenderedSettingLines(rt, m);
    }
    assert ReadLines(SerializeToIni(rt, m).value) == lines by {
      SettingLinesSingle(rt, m);
      ReadWriteLines(lines);
    }
    assert ParseIni(lines) == hash by {
      RenderParseRoundTrip(hash, PersistedOrder(m.settingsType.properties));
    }
  }

  /** Every written line is a single line when every persisted value encodes
      on one line under a valid key. */
  lemma SettingLinesSingle(rt: Runtime, m: Manager)
    requires Valid(m)
    requires forall p <- m.settingsType.properties :: Included(SettingsManagerPolicy, p) ==>
               ValidKey(p.name) && SingleLine(rt.encode(m.settings[p.name]))
    ensures forall l <- SettingLines(rt, m) :: SingleLine(l)
  {
    var order := PersistedOrder(m.settingsType.properties);
    var lines := SettingLines(rt, m);
    forall i | 0 <= i < |lines| ensures SingleLine(lines[i]) {
      var k := order[i];
      assert k in order;
      var p :| p in m.settingsType.properties && Included(SettingsManagerPolicy, p) && p.name == k;
      IniLineSingle(k, rt.encode(m.settings[k]));
    }
  }

  /** Settings round trip: when every persisted property can be read and
      written, has a valid INI key, and holds a value the JSON codec encodes on
      one line, gives back, and the declared type accepts, loading the saved
      text into any manager of the same type restores every persisted property,
      raises nothing, and leaves the [IgnoreSetting] properties of that manager
      as they were. */
  lemma SettingsRoundTrip(rt: Runtime, m: Manager, target: Manager)
    requires Valid(m) && Valid(target) && target.settingsType == m.settingsType
    requires forall p <- m.settingsType.properties :: Included(SettingsManagerPolicy, p) ==>
               && p.canRead && p.canWrite && ValidKey(p.name)
               && SingleLine(rt.encode(m.settings[p.name]))
               && RoundTrips(rt, m.settings[p.name])
               && FitsType(rt, p.propertyType, m.settings[p.name])
    ensures SerializeToIni(rt, m).Success?
    ensures var u := DeserializeFromIni(rt, target, SerializeToIni(rt, m).value);
      && u.raised.None?
      && (forall p <- m.settingsType.properties :: Included(SettingsManagerPolicy, p) ==> u.manager.settings[p.name] == m.settings[p.name])
      && (forall p <- m.settingsType.properties :: !Included(SettingsManagerPolicy, p) ==> u.manager.settings[p.name] == target.settings[p.name])
  {
    var hash := SerializeToHash(rt, m).value;
    assert ParseIni(ReadLines(SerializeToIni(rt, m).value)) == hash by {
      IniTextRoundTrip(rt, m);
    }
    var u := DeserializeFromHash(rt, target, hash);
    assert DeserializeFromIni(rt, target, SerializeToIni(rt, m).value) == u;
    forall p <- m.settingsType.properties
      ensures Decide(SettingsManagerPolicy, rt, p, hash) ==
                (if Included(SettingsManagerPolicy, p) then Success(Some(m.settings[p.name])) else Success(None))
    {
      if Included(SettingsManagerPolicy, p) {
        assert p.name in hash;
      }
    }
  }

  /** A persisted property without a setter is written out, but reading the
      written map back raises: the settings cannot be reloaded. */
  lemma ReadOnlySettingBreaksReload(rt: Runtime, m: Manager, p: Property)
    requires Valid(m)
    requires p in m.settingsType.properties && Included(SettingsManagerPolicy, p) && !p.canWrite
    requires SerializeToHash(rt, m).Success?
    ensures p.name in SerializeToHash(rt, m).value
    ensures DeserializeFromHash(rt, m, SerializeToHash(rt, m).value).raised.Some?
  {
    var hash := SerializeToHash(rt, m).value;
    assert p.name in hash;
    assert Decide(SettingsManagerPolicy, rt, p, hash).Failure?;
  }
}

=== FILE: text_lines.dfy ===
/**
 The line-oriented text I/O the INI layer goes through. Writing a line appends
 it and the platform newline `\r\n`; reading a line returns the characters up
 to the next `\r`, `\n` or `\r\n`, without the terminator, and a final line
 without a terminator is still returned.
 */
module TextLines {
  /** The newline a text writer appends to each line on the Windows platform. */
  const NewLine := "\r\n"

  predicate IsBreak(c: char) {
    c == '\r' || c == '\n'
  }

  /** The text holds no line terminator, so it reads back as one line. */
  predicate SingleLine(s: string) {
    '\r' !in s && '\n' !in s
  }

  /** Index of the first line terminator in `s`, or `|s|` when there is none. */
  function BreakAt(s: string): (i: nat)
    ensures i <= |s|
    ensures forall j :: 0 <= j < i ==> !IsBreak(s[j])
    ensures i < |s| ==> IsBreak(s[i])
    decreases |s|
  {
    if |s| == 0 || IsBreak(s[0]) then 0 else 1 + BreakAt(s[1..])
  }

  /** The text a writer produces for the given lines. */
  function WriteLines(lines: seq<string>): (text: string)
    ensures |lines| == 0 <==> |text| == 0
    ensures |lines| > 0 ==> |text| >= |NewLine| && text[|text| - |NewLine|..] == NewLine
    decreases |lines|
  {
    if |lines| == 0 then "" else lines[0] + NewLine + WriteLines(lines[1..])
  }

  /** The lines successive reads return, until the end of the text. */
  function ReadLines(text: string): (lines: seq<string>)
    ensures forall l <- lines :: SingleLine(l)
    ensures |text| == 0 <==> |lines| == 0
    decreases |text|
  {
    if |text| == 0 then []
    else
      var i := BreakAt(text);
      var line := text[..i];
      assert SingleLine(line) by {
        forall j | 0 <= j < |line| ensures !IsBreak(line[j]) {
          assert line[j] == text[j];
        }
      }
      if i == |text| then [line]
      else
        var next := if text[i] == '\r' && i + 1 < |text| && text[i + 1] == '\n' then i + 2 else i + 1;
        [line] + ReadLines(text[next..])
  }

  /** A single line followed by a terminator breaks exactly at its end. */
  lemma {:induction false} BreakAtLineEnd(l: string, w: string)
    requires SingleLine(l)
    requires |w| > 0 && IsBreak(w[0])
    ensures BreakAt(l + w) == |l|
    decreases |l|
  {
    if |l| > 0 {
      assert l[0] in l;
      assert (l + w)[1..] == l[1..] + w;
      assert SingleLine(l[1..]) by {
        assert forall c <- l[1..] :: c in l;
      }
      BreakAtLineEnd(l[1..], w);
    } else {
      assert l + w == w;
    }
  }

  /** Text without a terminator is read as one line. */
  lemma ReadLinesLast(l: string)
    requires |l| > 0 && SingleLine(l)
    ensures ReadLines(l) == [l]
  {
    assert l[..|l|] == l;
  }

  /** A line ended by `\r\n`, `\n` or `\r` is read, and reading resumes right
      after its terminator. A `\r` directly followed by `\n` is one
      terminator, so a lone `\r` counts only when no `\n` follows it. */
  lemma ReadLinesStep(l: string, t: string, rest: string)
    requires SingleLine(l)
    requires t == "\r\n" || t == "\n" || (t == "\r" && (|rest| == 0 || rest[0] != '\n'))
    ensures ReadLines(l + t + rest) == [l] + ReadLines(rest)
  {
    var text := l + t + rest;
    assert text == l + (t + rest);
    BreakAtLineEnd(l, t + rest);
    assert text[..|l|] == l;
    assert text[|l|] == t[0];
    var next := |l| + |t|;
    if t == "\r\n" {
      assert text[|l| + 1] == '\n';
    } else if t == "\r" && |rest| > 0 {
      assert text[|l| + 1] == rest[0];
    }
    assert text[next..] == rest;
  }

  /** Writing lines that hold no terminator and reading the text back gives
      the same lines. */
  lemma {:induction false} ReadWriteLines(lines: seq<string>)
    requires forall l <- lines :: SingleLine(l)
    ensures ReadLines(WriteLines(lines)) == lines
    decreases |lines|
  {
    if |lines| > 0 {
      var l := lines[0];
      var rest := WriteLines(lines[1..]);
      assert l in lines;
      assert WriteLines(lines) == l + NewLine + rest;
      ReadLinesStep(l, NewLine, rest);
      assert forall q <- lines[1..] :: q in lines;
      ReadWriteLines(lines[1..]);
      assert lines == [l] + lines[1..];
    }
  }

  /** Text with `\n` line ends and no final terminator, as a hand-edited file
      may have, is read line by line: `a\nb` reads as `a` and `b`. */
  lemma BareNewlineExample()
    ensures ReadLines("a\nb") == ["a", "b"]
  {
    assert "a\nb" == "a" + "\n" + "b";
    ReadLinesStep("a", "\n", "b");
    ReadLinesLast("b");
  }

  /** A line that holds a `\n` is read back as two lines. */
  lemma BrokenLineSplits(a: string, b: string)
    requires SingleLine(a) && SingleLine(b)
    ensures ReadLines(WriteLines([a + "\n" + b])) == [a, b]
  {
    assert [a + "\n" + b][1..] == [] && [b][1..] == [];
    assert WriteLines([a + "\n" + b]) == a + "\n" + WriteLines([b]);
    ReadLinesStep(a, "\n", WriteLines([b]));
    ReadWriteLines([b]);
  }
}

=== FILE: tray_settings.dfy ===
/**
 The tray application's settings load/save policy over an abstract file store.
 Loading a file that exists updates the settings from its text; a file that
 exists but raises an I/O error when opened falls back to defaults and is left
 alone; a missing file falls back to defaults, which are then saved to it.
 Saving replaces the whole file and reports an I/O error as `false`. Only I/O
 errors are caught: a refused access, and decoding, conversion and reflection
 failures, escape both operations.
 */
module TraySettings {
  import opened Values
  import opened Reflection
  import opened SettingsManager

  /** What opening a file can raise: an I/O error, which the application
      catches, or an access refusal, which it does not. */
  datatype Fault = IOFault | AccessFault

  /** The file store: each existing file's text, and what opening a file for
      reading or for writing raises, if anything. */
  datatype Disk = Disk(files: map<string, string>, readFault: Option<Fault>, writeFault: Option<Fault>)

  /** The disk after a save, and what the save returned or raised. */
  datatype Saved = Saved(disk: Disk, result: Result<bool>)

  /** Writes the settings to `path`, replacing the file. An I/O error on
      opening is reported as `false`; a refused access escapes; a failure to
      read a setting escapes, after the writer has already emptied the file. */
  function SaveSettings(rt: Runtime, m: Manager, disk: Disk, path: string): (s: Saved)
    requires Valid(m)
    ensures s.disk.readFault == disk.readFault && s.disk.writeFault == disk.writeFault
    ensures forall q :: q != path ==> (q in s.disk.files <==> q in disk.files)
    ensures forall q :: q != path && q in disk.files ==> s.disk.files[q] == disk.files[q]
    ensures s.result == Success(true) <==> disk.writeFault.None? && SerializeToIni(rt, m).Success?
    ensures s.result == Success(true) ==>
              path in s.disk.files && s.disk.files[path] == SerializeToIni(rt, m).value
    ensures s.result == Success(false) <==> disk.writeFault == Some(IOFault)
    ensures s.result == Failure(AccessDenied(path)) <==> disk.writeFault == Some(AccessFault)
    ensures disk.writeFault.Some? ==> s.disk == disk
    ensures s.result.Failure? && disk.writeFault.None? ==>
              && SerializeToIni(rt, m).Failure?
              && s.result.error == SerializeToIni(rt, m).error
              && path in s.disk.files && s.disk.files[path] == ""
  {
    match disk.writeFault
    case Some(IOFault) => Saved(disk, Success(false))
    case Some(AccessFault) => Saved(disk, Failure(AccessDenied(path)))
    case None =>
      match SerializeToIni(rt, m)
      case Failure(e) =>
        assert e != AccessDenied(path) by {
          assert e.NotReadable?;
        }
        Saved(disk.(files := disk.files[path := ""]), Failure(e))
      case Success(text) => Saved(disk.(files := disk.files[path := text]), Success(true))
  }

  /** The manager and disk after a load, and what the load returned or raised. */
  datatype Loaded = Loaded(manager: Manager, disk: Disk, result: Result<Instance>)

  /** What an update returns to the caller: the held object, or the exception. */
  function Outcome(u: Updated): Result<Instance> {
    match u.raised
    case Some(e) => Failure(e)
    case None => Success(u.manager.settings)
  }

  /** Loads the settings from `path`, following the three-way policy, and
      returns the held object. */
  function LoadSettings(rt: Runtime, m: Manager, disk: Disk, path: string): (l: Loaded)
    requires Valid(m)
    ensures Valid(l.manager) && l.manager.settingsType == m.settingsType
    ensures path in disk.files && disk.readFault.None? ==>
              var u := DeserializeFromIni(rt, m, disk.files[path]);
              l.manager == u.manager && l.result == Outcome(u) && l.disk == disk
    ensures path in disk.files && disk.readFault == Some(IOFault) ==>
              var u := DeserializeFromHash(rt, m, map[]);
              l.manager == u.manager && l.result == Outcome(u) && l.disk == disk
    ensures path in disk.files && disk.readFault == Some(AccessFault) ==>
              l.manager == m && l.result == Failure(AccessDenied(path)) && l.disk == disk
    ensures path !in disk.files ==> l.manager == DeserializeFromHash(rt, m, map[]).manager
    ensures path !in disk.files && DeserializeFromHash(rt, m, map[]).raised.Some? ==>
              l.disk == disk && l.result == Failure(DeserializeFromHash(rt, m, map[]).raised.value)
    ensures path !in disk.files && DeserializeFromHash(rt, m, map[]).raised.None? ==>
              var s := SaveSettings(rt, l.manager, disk, path);
              && l.disk == s.disk
              && (l.result.Success? <==> s.result.Success?)
              && (s.result.Failure? ==> l.result.error == s.result.error)
    ensures l.result.Success? ==> l.result.value == l.manager.settings
  {
    if path in disk.files then
      match disk.readFault
      case Some(AccessFault) => Loaded(m, disk, Failure(AccessDenied(path)))
      case Some(IOFault) =>
        var u := DeserializeFromHash(rt, m, map[]);
        Loaded(u.manager, disk, Outcome(u))
      case None =>
        var u := DeserializeFromIni(rt, m, disk.files[path]);
        Loaded(u.manager, disk, Outcome(u))
    else
      var u := DeserializeFromHash(rt, m, map[]);
      if u.raised.Some? then Loaded(u.manager, disk, Outcome(u))
      else
        var s := SaveSettings(rt, u.manager, disk, path);
        match s.result
        case Failure(e) => Loaded(u.manager, s.disk, Failure(e))
        case Success(_) => Loaded(u.manager, s.disk, Success(u.manager.settings))
  }

  /** Missing file: the defaults are decoded and then written to the file, and
      the load returns them. */
  lemma MissingFileBootstrap(rt: Runtime, m: Manager, disk: Disk, path: string)
    requires Valid(m)
    requires path !in disk.files && disk.writeFault.None?
    requires DeserializeFromHash(rt, m, map[]).raised.None?
    requires SerializeToIni(rt, DeserializeFromHash(rt, m, map[]).manager).Success?
    ensures var l := LoadSettings(rt, m, disk, path);
      && l.manager == DeserializeFromHash(rt, m, map[]).manager
      && l.result == Success(l.manager.settings)
      && path in l.disk.files
      && l.disk.files[path] == SerializeToIni(rt, l.manager).value
      && forall q :: q != path ==> (q in l.disk.files <==> q in disk.files)
  {
  }

  /** The boolean from the bootstrap save is discarded: a save that fails with
      an I/O error leaves the disk as it was and the load still succeeds. */
  lemma BootstrapSaveFailureIgnored(rt: Runtime, m: Manager, disk: Disk, path: string)
    requires Valid(m)
    requires path !in disk.files && disk.writeFault == Some(IOFault)
    requires DeserializeFromHash(rt, m, map[]).raised.None?
    ensures var l := LoadSettings(rt, m, disk, path);
      l.disk == disk && l.result == Success(l.manager.settings)
  {
  }

  /** A refused access is not an I/O error: it escapes the load, both when
      opening an existing file to read it and when the bootstrap save opens a
      missing file to write it, and the disk is left as it was. */
  lemma AccessDeniedEscapes(rt: Runtime, m: Manager, disk: Disk, path: string)
    requires Valid(m)
    requires if path in disk.files then disk.readFault == Some(AccessFault)
             else disk.writeFault == Some(AccessFault) && DeserializeFromHash(rt, m, map[]).raised.None?
    ensures var l := LoadSettings(rt, m, disk, path);
      l.disk == disk && l.result == Failure(AccessDenied(path))
  {
  }

  /** Every persisted property takes its default on an empty map: the
      [DefaultValue] if there is one, else it keeps its previous value. */
  lemma DefaultsOnEmptyMap(rt: Runtime, m: Manager, p: Property)
    requires Valid(m)
    requires p in m.settingsType.properties
    requires DeserializeFromHash(rt, m, map[]).raised.None?
    ensures var s := DeserializeFromHash(rt, m, map[]).manager.settings;
      && (Included(SettingsManagerPolicy, p) && p.defaultValue.Some? ==> s[p.name] == p.defaultValue.value)
      && (!Included(SettingsManagerPolicy, p) || p.defaultValue.None? ==> s[p.name] == m.settings[p.name])
  {
    assert Decide(SettingsManagerPolicy, rt, p, map[]) ==
      (if Included(SettingsManagerPolicy, p) then Success(p.defaultValue) else Success(None));
  }

  /** After a bootstrap has written the defaults, loading the file again into a
      fresh manager restores those defaults, when the settings round trip holds
      for them. */
  lemma ReloadAfterBootstrap(rt: Runtime, t: ModelType, disk: Disk, path: string)
    requires WellFormed(t) && t.construct.Some?
    requires path !in disk.files && disk.writeFault.None? && disk.readFault.None?
    requires DeserializeFromHash(rt, NewManager(t), map[]).raised.None?
    requires var d := DeserializeFromHash(rt, NewManager(t), map[]).manager.settings;
      forall p <- t.properties :: Included(SettingsManagerPolicy, p) ==>
        && p.canRead && p.canWrite && Ini.ValidKey(p.name)
        && TextLines.SingleLine(rt.encode(d[p.name]))
        && RoundTrips(rt, d[p.name]) && FitsType(rt, p.propertyType, d[p.name])
    ensures var first := LoadSettings(rt, NewManager(t), disk, path);
      var second := LoadSettings(rt, NewManager(t), first.disk, path);
      && first.result.Success?
      && second.result.Success?
      && forall p <- t.properties :: Included(SettingsManagerPolicy, p) ==> second.manager.settings[p.name] == first.manager.settings[p.name]
  {
    var m := NewManager(t);
    var d := DeserializeFromHash(rt, m, map[]).manager;
    SettingsRoundTrip(rt, d, m);
    MissingFileBootstrap(rt, m, disk, path);
  }
}

=== FILE: values.dfy ===
/**
 Runtime values, the errors the serializers can raise, and the foreign
 collaborators they call: the JSON codec (run with type names embedded), the
 type-assignability test and the type converter. The collaborators are kept
 abstract as function-valued fields of a `Runtime` record; every property
 proved about the serializers holds for any choice of them, under the
 assumptions each lemma states.
 */
module Values {

  datatype Option<+T> = None | Some(value: T)

  /** Success or the exception that escaped a call. */
  datatype Result<+R> = Success(value: R) | Failure(error: Error) {

    predicate IsFailure() {
      Failure?
    }

    function PropagateFailure<U>(): Result<U>
      requires Failure?
    {
      Failure(error)
    }

    function Extract(): R
      requires Success?
    {
      value
    }
  }

  /** Name of a runtime type (a class, a struct, an interface). */
  type TypeName = string

  /** A property value: a null reference, or an object of some runtime type. */
  datatype Value = Null | Object(runtimeType: TypeName, payload: string)

  datatype Error =
    | ConstructionError                               // no parameterless constructor
    | JsonError(property: string)                     // the JSON codec rejected the stored text
    | ConversionError(property: string, target: TypeName)  // the type converter cannot convert
    | NotReadable(property: string)                   // reflection get on a property without a getter
    | NotWritable(property: string)                   // reflection set on a property without a setter
    | AccessDenied(path: string)                      // the file system refused to open a file

  /** The foreign code the serializers call. */
  datatype Runtime = Runtime(
    encode: Value -> string,                    // JSON serialization, type names embedded; taken never to throw
    decode: string -> Option<Value>,            // JSON deserialization; None when it throws
    assignable: (TypeName, TypeName) -> bool,   // declared type is assignable from runtime type
    convert: (TypeName, Value) -> Option<Value> // type converter for the declared type; None when it throws
  )

  /** The JSON codec gives `v` back from its own encoding. */
  predicate RoundTrips(rt: Runtime, v: Value) {
    rt.decode(rt.encode(v)) == Some(v)
  }

  /** `v` may be stored in a property declared with type `t` without conversion. */
  predicate FitsType(rt: Runtime, t: TypeName, v: Value) {
    v.Null? || rt.assignable(t, v.runtimeType)
  }
}
